=== FILE: README.md ===
# Eto platform rules, modelled in Dafny

Eto is a cross-platform widget toolkit. Each operating system gets a "handler" that maps the
abstract widget API onto a native toolkit: AppKit on macOS, WinForms or WPF on Windows. Almost all
handler code is native glue. This project models the few rules inside that glue that do not depend
on any platform, and proves properties of them:

- **View sizing** (`MacView`, from `MacView<T, W>`):
  - the preferred size is the natural size, optionally overridden by an explicit size, then
    clamped to a minimum and then a maximum;
  - when a re-layout is needed;
  - the `Size` and `Visible` setters;
  - the filter that suppresses duplicate size-changed notifications.
- **Mouse dispatch** (`MouseDispatch`): which widget callbacks a native mouse event reaches, and
  whether the event goes on to the native superclass.
- **System actions** (`SystemActions`): the fixed table of twelve action names with their
  selectors, the per-view map from selector to action, the two validators and the trigger.
- **Absolute layout** (`PixelLayout`, from `PixelLayoutHandler`):
  - the child-to-location map with Add, Move and Remove;
  - the preferred size, a max-fold over the children;
  - how a location becomes a frame origin in flipped and unflipped views.
- **Lazy tree population** (`TreeView`, from the WinForms `TreeViewHandler`): item trees become
  node trees. A collapsed expandable item gets a placeholder child, and the real children replace
  it just before the node expands.
- **Binding registration** (`BindingExtensions`):
  - how every `Bind` overload builds a dual binding;
  - which widget's `Bindings` collection receives it;
  - how null defaults are wired;
  - how a data-context binding is retargeted when the context changes.
- **Special folders** (`EtoEnvironment`): `Convert` and the dispatch in `GetFolderPath`.

Shared pieces:

- `Geometry` holds the integer `Size`, `Point` and `Rect`. Its additions wrap like the
  toolkit's unchecked 32-bit arithmetic.
- `Results` holds `Option` (C#'s null) and `Result`, which carries either a value or the
  exception the code raises.

Native inputs are parameters of the model:

| native input | how the model takes it |
|---|---|
| the size `SizeToFit` reports | `fit`: `None` when the view is not an `NSControl` |
| the frame size and frame height | integer parameters |
| `Widget.Loaded` | `loaded` |
| the frame size the frame-changed observer reads while the `Size` setter writes the frame | `notification`: `None` when no notification is posted |
| whether a callback marks an event handled | a boolean per callback |
| a child's preferred size and position offset | parameters |
| the dictionary's enumeration order | `order` |
| a widget's current `DataContext` | `dataContext` |
| the identity of a newly allocated `DualBinding` | `id`, required to name no entry already registered |

## Model

| member | source | states |
|---|---|---|
| MacView.New | Source/Eto.Platform.Mac/Forms/MacView.cs:155-158 | A new view auto-sizes, and has no preferred, minimum or maximum size, no cached natural size and no recorded frame size. |
| MacView.NaturalSize | Source/Eto.Platform.Mac/Forms/MacView.cs:160-174 | A cached natural size is returned as is. Otherwise a native control is measured and the result cached; a non-control measures Empty and caches nothing. |
| MacView.NaturalSizeIsCached | Source/Eto.Platform.Mac/Forms/MacView.cs:162-168 | Once a control has been measured, later calls return the cached size whatever the control reports now. |
| MacView.Requested | Source/Eto.Platform.Mac/Forms/MacView.cs:178-185 | With auto-size on or no preferred size, the natural size passes through. Otherwise a preferred component replaces the natural one exactly when it is >= 0. |
| MacView.Clamp | Source/Eto.Platform.Mac/Forms/MacView.cs:186-190 | Each component above the maximum becomes exactly the maximum; one below the minimum becomes exactly the minimum when the bounds agree; one within the bounds is unchanged; on a conflict the maximum wins. The result fits the maximum and, when the bounds agree, holds the minimum. |
| MacView.ClampIdempotent | Source/Eto.Platform.Mac/Forms/MacView.cs:186-190 | Clamping twice equals clamping once. |
| MacView.GetPreferredSize | Source/Eto.Platform.Mac/Forms/MacView.cs:176-191 | The preferred size is <= the maximum when set, and >= the minimum when only the minimum is set. Without overrides or bounds it is the natural size. |
| MacView.ExplicitSizeWins | Source/Eto.Platform.Mac/Forms/MacView.cs:179-190 | With auto-size off, a non-negative explicit size inside the bounds is exactly the preferred size. |
| MacView.LayoutIfNeeded | Source/Eto.Platform.Mac/Forms/MacView.cs:124-138 | The cached natural size is dropped, so only a fresh measurement remains. A re-layout is reported iff the widget is loaded and (the freshly computed preferred size differs from the old one, or from the frame size when none is given, or force). A needed re-layout raises a null-reference error when the widget has no parent layout, and updates the parent only when it is a macOS layout. |
| MacView.LayoutSettles | Source/Eto.Platform.Mac/Forms/MacView.cs:124-138 | Asking again right after a re-layout, with the size just computed as the old size and no force, reports nothing to do and keeps the view. |
| MacView.SetSize | Source/Eto.Platform.Mac/Forms/MacView.cs:112-121 | The size becomes the preferred size and auto-size turns off; the bounds are kept. Writing the frame raises SizeChanged iff a notification is posted for a size other than the recorded one, and the notified size is recorded. A re-layout happens iff the widget is loaded and the preferred size moved; it fails exactly when there is no parent layout and updates the parent only for a macOS layout. |
| MacView.SetSizeThenPreferred | Source/Eto.Platform.Mac/Forms/MacView.cs:112-121 | After successfully setting a non-negative size inside the bounds, the view prefers exactly that size. |
| MacView.SetVisible | Source/Eto.Platform.Mac/Forms/MacView.cs:458-467 | A real visibility change forces a re-layout iff the widget is loaded, which fails exactly when there is no parent layout. Setting the current visibility changes nothing. |
| MacView.SetVisibleThenAgain | Source/Eto.Platform.Mac/Forms/MacView.cs:458-467 | Repeating a successful set changes nothing; setting the other value afterwards hides or shows again and forces a re-layout iff the widget is loaded. |
| MacView.OnFrameChanged | Source/Eto.Platform.Mac/Forms/MacView.cs:253-263 | SizeChanged fires iff no size was recorded or the new size differs from the recorded one. When it fires, the new size is recorded; otherwise nothing changes. |
| MacView.FiredHasNoRepeats | Source/Eto.Platform.Mac/Forms/MacView.cs:253-263 | Over any run of notifications, no two consecutive firings carry the same size. The first firing differs from the size recorded before the run, and the recorded size is the last one fired. |
| MouseDispatch.ChainStopsAtFirstHandler | Source/Eto.Platform.Mac/Forms/MacView.cs:343-351 | The handled-stops-propagation rule fires a prefix of the callbacks, up to the first one that handles. The superclass runs iff no callback handles. |
| MouseDispatch.TriggerMouseDown | Source/Eto.Platform.Mac/Forms/MacView.cs:337-352 | Double-click fires first iff the click count is >= 2. Mouse-down fires iff the event is still unhandled. The superclass runs iff it is still unhandled after that. |
| MouseDispatch.MouseDownIsChain | Source/Eto.Platform.Mac/Forms/MacView.cs:343-351 | Mouse-down dispatch equals the reference chain over the callbacks that apply to the event. |
| MouseDispatch.TriggerMouseUp | Source/Eto.Platform.Mac/Forms/MacView.cs:354-365 | Mouse-up always fires; the superclass runs iff it leaves the event unhandled. |
| MouseDispatch.TriggerMouseDragged | Source/Eto.Platform.Mac/Forms/MacView.cs:367-378 | A drag reaches the widget as a mouse move; the superclass runs iff that leaves the event unhandled. |
| MouseDispatch.TriggerMouseWheel | Source/Eto.Platform.Mac/Forms/MacView.cs:380-393 | A zero delta fires nothing and is not passed on. Otherwise the wheel callback fires and the superclass runs iff the event stays unhandled. |
| MouseDispatch.SingleCallbackIsChain | Source/Eto.Platform.Mac/Forms/MacView.cs:354-393 | Up, drag and a non-zero wheel each equal the one-step reference chain. |
| SystemActions.SelectorFor | Source/Eto.Platform.Mac/Forms/MacView.cs:584-610 | A name has a selector iff it is in the table; that selector is the name followed by a colon. |
| SystemActions.SelectorsDistinct | Source/Eto.Platform.Mac/Forms/MacView.cs:596-610 | Distinct table names have distinct selectors. |
| SystemActions.TableHasTwelveNames | Source/Eto.Platform.Mac/Forms/MacView.cs:596-610 | The table has exactly twelve pairwise distinct names. |
| SystemActions.New | Source/Eto.Platform.Mac/Forms/MacView.cs:581 | A new view has a null action map and no overridden selectors, which satisfies the handler invariant. |
| SystemActions.MapPlatformAction | Source/Eto.Platform.Mac/Forms/MacView.cs:612-626 | An unknown name changes nothing. A table name stores the action under its selector, replacing any earlier one, and installs that selector. The first mapping also installs both validators. Other selectors keep their actions, and the invariant is preserved. |
| SystemActions.Validate | Source/Eto.Platform.Mac/Forms/MacView.cs:553-579 | True iff the item's selector names a mapped non-null action and that action is enabled. No selector, an unmapped selector or a null action gives false. |
| SystemActions.TriggerSystemAction | Source/Eto.Platform.Mac/Forms/MacView.cs:541-551 | Nothing happens iff the selector is unmapped. A mapped action is the one activated; a null action fails with a null reference. |
| SystemActions.MapThenUse | Source/Eto.Platform.Mac/Forms/MacView.cs:541-626 | After a name is mapped, validation reports the action's Enabled and triggering activates that action. A null action validates false and fails when triggered. |
| SystemActions.MapTwiceOverwrites | Source/Eto.Platform.Mac/Forms/MacView.cs:612-626 | Mapping one name twice leaves only the second action. |
| SystemActions.MapLeavesOthers | Source/Eto.Platform.Mac/Forms/MacView.cs:612-626 | Mapping a name leaves every other selector's validation and trigger outcome unchanged. |
| PixelLayout.New | Source/Eto.Platform.Mac/Forms/PixelLayoutHandler.cs:14-15 | A new layout tracks no children and is not loaded. |
| PixelLayout.LoadComplete | Source/Eto.Platform.Mac/Forms/PixelLayoutHandler.cs:46-56 | Load completion marks the layout loaded and keeps every location. |
| PixelLayout.AddAfterLoad | Source/Eto.Platform.Mac/Forms/PixelLayoutHandler.cs:46-56 | After load completion, adding a child positions it and updates the parent layout. |
| PixelLayout.Add | Source/Eto.Platform.Mac/Forms/PixelLayoutHandler.cs:93-105 | The child maps to (x, y), overwriting any earlier location; no other entry changes. The child is positioned and the parent updated iff the layout is loaded. |
| PixelLayout.Move | Source/Eto.Platform.Mac/Forms/PixelLayoutHandler.cs:107-118 | An untracked child fails with KeyNotFound. Moving to the current location changes nothing. Otherwise the location is replaced, and the child is positioned and the parent updated iff the layout is loaded. |
| PixelLayout.Remove | Source/Eto.Platform.Mac/Forms/PixelLayoutHandler.cs:120-127 | The child's entry is deleted and all other entries are unchanged. The parent is updated iff the layout is loaded. |
| PixelLayout.AddThenRemove | Source/Eto.Platform.Mac/Forms/PixelLayoutHandler.cs:93-127 | Adding an untracked child and then removing it restores the layout. |
| PixelLayout.MoveIsReAdd | Source/Eto.Platform.Mac/Forms/PixelLayoutHandler.cs:93-118 | Moving a tracked child never fails and leaves the same map as adding it again. |
| Geometry.Plus | Source/Eto.Platform.Mac/Forms/PixelLayoutHandler.cs:41 | A child's extent (preferred size plus location) is a 32-bit value, and equals the plain sum when that sum does not overflow. |
| PixelLayout.MaxExtent | Source/Eto.Platform.Mac/Forms/PixelLayoutHandler.cs:38-43 | The fold from Empty is >= 0 and >= every folded child's extent; each component is 0 or some child's extent. |
| PixelLayout.GetPreferredSize | Source/Eto.Platform.Mac/Forms/PixelLayoutHandler.cs:36-44 | An empty layout prefers Empty. Otherwise the preferred size is the least bound: it holds every tracked child's extent, and each component is 0 or reached by some child. |
| PixelLayout.PreferredSizeOrderIndependent | Source/Eto.Platform.Mac/Forms/PixelLayoutHandler.cs:36-44 | The preferred size does not depend on the dictionary's enumeration order. |
| PixelLayout.Origin | Source/Eto.Platform.Mac/Forms/PixelLayoutHandler.cs:65-75 | x = location.x + offset.width. In a flipped view y = location.y + offset.height; otherwise y = frameHeight - (preferredHeight + location.y + offset.height). Sums are 32-bit. |
| PixelLayout.UnflippedTopEdge | Source/Eto.Platform.Mac/Forms/PixelLayoutHandler.cs:71-75 | Without overflow, the unflipped origin puts the child's top edge as far below the container's top as the flipped origin puts it. |
| PixelLayout.SetPosition | Source/Eto.Platform.Mac/Forms/PixelLayoutHandler.cs:58-81 | The frame has the computed origin and the child's preferred size. The native frame is reassigned iff it differs. |
| PixelLayout.SetPositionSettles | Source/Eto.Platform.Mac/Forms/PixelLayoutHandler.cs:77-80 | Placing a child a second time reassigns nothing. |
| PixelLayout.LayoutChildren | Source/Eto.Platform.Mac/Forms/PixelLayoutHandler.cs:83-91 | Exactly the tracked children are placed, each at its own location. |
| PixelLayout.GetPosition | Source/Eto.Platform.Mac/Forms/PixelLayoutHandler.cs:26-34 | A tracked child's origin is its stored location and its size is its current frame size. An untracked child gets the base layout's answer. |
| PixelLayout.FlippedLayoutMatchesGetPosition | Source/Eto.Platform.Mac/Forms/PixelLayoutHandler.cs:26-70 | In a flipped view, a child with no offset is placed at the origin GetPosition reports. |
| TreeView.ImageKey | Source/Eto.Platform.Windows/Forms/Controls/TreeViewHandler.cs:123-127 | The key is null iff the image is null. |
| TreeView.ImageKeyAsWritten | Source/Eto.Platform.Windows/Forms/Controls/TreeViewHandler.cs:123-136 | The cache is never filled: each call for an uncached image appends it to the list under the fresh key. |
| TreeView.ImageKeyAsWrittenDuplicates | Source/Eto.Platform.Windows/Forms/Controls/TreeViewHandler.cs:130-135 | Two requests for one image add two list entries under two different keys. |
| TreeView.ImageKeyCached | Source/Eto.Platform.Windows/Forms/Controls/TreeViewHandler.cs:123-136 | Corrected: a cached image returns its key and adds nothing; a new image is appended and remembered; earlier cache entries are kept. |
| TreeView.ImageKeyCachedReuses | Source/Eto.Platform.Windows/Forms/Controls/TreeViewHandler.cs:130-135 | Corrected: a second request returns the first key and changes nothing. |
| TreeView.CachedKeysAreKeyFor | Source/Eto.Platform.Windows/Forms/Controls/TreeViewHandler.cs:123-136 | While the corrected cache agrees with the key function used for population, it answers that function's key and keeps agreeing. |
| TreeView.PopulateNode | Source/Eto.Platform.Windows/Forms/Controls/TreeViewHandler.cs:107-119 | A node carries its item's key, text and tag. A non-expandable item gets no children. A collapsed expandable item gets exactly the placeholder. An expanded one is expanded and has its children populated recursively. |
| TreeView.PopulateNodes | Source/Eto.Platform.Windows/Forms/Controls/TreeViewHandler.cs:103-121 | The collection is replaced by exactly one node per item, in store order; node i is item i's node. |
| TreeView.PopulatedShape | Source/Eto.Platform.Windows/Forms/Controls/TreeViewHandler.cs:103-121 | Node i has item i's key, text and tag. It looks like a placeholder holder iff the item is expandable and either collapsed or has a single child keyed like the placeholder. |
| TreeView.BeforeExpand | Source/Eto.Platform.Windows/Forms/Controls/TreeViewHandler.cs:22-28 | A node whose only child is the placeholder gets its item's real children. Every other node is left untouched. A tagless placeholder holder fails. |
| TreeView.LazyMatchesEager | Source/Eto.Platform.Windows/Forms/Controls/TreeViewHandler.cs:22-28 | Lazily expanding a collapsed item's node gives the same children as populating the item expanded. |
| TreeView.BeforeExpandIdempotent | Source/Eto.Platform.Windows/Forms/Controls/TreeViewHandler.cs:22-28 | Running the lazy load twice equals running it once. |
| TreeView.Expanding | Source/Eto.Platform.Windows/Forms/Controls/TreeViewHandler.cs:47-53 | The native Cancel is set iff the Expanding handler is attached and the widget cancels. The node is the lazily loaded one. |
| TreeView.Collapsing | Source/Eto.Platform.Windows/Forms/Controls/TreeViewHandler.cs:59-65 | The native Cancel is set iff the Collapsing handler is attached and the widget cancels. |
| TreeView.CancelledExpansionStillLoads | Source/Eto.Platform.Windows/Forms/Controls/TreeViewHandler.cs:22-53 | A cancelled expansion still replaces the placeholder, because the loading handler is attached first. |
| TreeView.SelectedItem | Source/Eto.Platform.Windows/Forms/Controls/TreeViewHandler.cs:138-144 | Null when no node is selected; otherwise the selected node's tag. |
| TreeView.SetDataStore | Source/Eto.Platform.Windows/Forms/Controls/TreeViewHandler.cs:34-42 | A null store fails. Otherwise the top nodes are one per item, each tagged with its item. |
| TreeView.SelectingPopulatedNode | Source/Eto.Platform.Windows/Forms/Controls/TreeViewHandler.cs:138-144 | Selecting the i-th top node of a freshly set store reports item i. |
| TreeView.ActivateOnKey | Source/Eto.Platform.Windows/Forms/Controls/TreeViewHandler.cs:72-78 | Return activates the selected item iff there is one, and then marks the key handled. |
| TreeView.ActivateOnDoubleClick | Source/Eto.Platform.Windows/Forms/Controls/TreeViewHandler.cs:79-84 | A double click activates the selected item iff there is one, exactly the item Return would activate. |
| BindingExtensions.Register | Source/Eto/Binding/BindingExtensions.cs:32 | Adding a binding appends exactly it to that widget's collection; every other widget's collection is unchanged. |
| BindingExtensions.BindProperty | Source/Eto/Binding/BindingExtensions.cs:23-34 | One dual binding is appended to the widget and returned: the source's property is the source, the widget's property the target, with the given mode. |
| BindingExtensions.BindSource | Source/Eto/Binding/BindingExtensions.cs:44-53 | The caller's binding is the source and the widget's property the target; the binding is appended to the widget. |
| BindingExtensions.BindDataContext | Source/Eto/Binding/BindingExtensions.cs:70-75 | The source reads the named property of the data context, with the defaults wired: GettingNullValue is the widget default, SettingNullValue the context default. The widget gets the dual binding, then the context watcher. |
| BindingExtensions.BindMembers | Source/Eto/Binding/BindingExtensions.cs:77-83 | Fails with InvalidCast iff either lambda body is not a member expression. |
| BindingExtensions.BindDataContextMembers | Source/Eto/Binding/BindingExtensions.cs:85-91 | Fails with InvalidCast iff either lambda body is not a member expression. |
| BindingExtensions.ExpressionOverloadsReduce | Source/Eto/Binding/BindingExtensions.cs:77-91 | Both expression overloads equal the name-based overloads applied to the member names. |
| BindingExtensions.DefaultsAreTwoWayAndNull | Source/Eto/Binding/BindingExtensions.cs:23 | Without a mode, bindings are TwoWay. Without defaults, the null values are null. |
| BindingExtensions.BindIndirect | Source/Eto/Binding/BindingExtensions.cs:93-96 | The widget bound through the given indirect binding is the target, and the binding is registered on that widget. |
| BindingExtensions.BindObjectValue | Source/Eto/Binding/BindingExtensions.cs:98-105 | The source is the object binding on the given value, with GettingNullValue set to the widget default and SettingNullValue to the context default; the binding is registered on the widget. |
| BindingExtensions.BindIndirectToContext | Source/Eto/Binding/BindingExtensions.cs:107-110 | The source reads the data context through the given binding; the widget gets the dual binding, then the watcher. |
| BindingExtensions.BindObject | Source/Eto/Binding/BindingExtensions.cs:112-123 | The value binding is the source and the widget binding the target. It is appended to the data item's collection iff that item is an instance widget; otherwise it is returned unregistered. |
| BindingExtensions.BindObjectToContext | Source/Eto/Binding/BindingExtensions.cs:125-142 | Fails with ArgumentOutOfRange iff the data item is not an instance widget. Otherwise two bindings are appended in order: the dual binding (source on the current context, with the null defaults), then the watcher that retargets it. |
| BindingExtensions.MemberName | Source/Eto/Binding/BindingExtensions.cs:80-81 | A member expression yields its member name; anything else fails with InvalidCast. |
| BindingExtensions.DataContextChanged | Source/Eto/Binding/BindingExtensions.cs:136-139 | When a widget's context changes, each binding in its collection is retargeted if a watcher names it. Other widgets are untouched. |
| BindingExtensions.Retarget | Source/Eto/Binding/BindingExtensions.cs:138 | A watched binding's source takes the new context as its data item. Its path, null defaults, target and mode are kept. |
| BindingExtensions.DataContextChangeRetargets | Source/Eto/Binding/BindingExtensions.cs:125-142 | After a data-context bind with a new binding identity and a context change, the registered binding reads from the new context with the same path and defaults, its watcher follows it, the earlier bindings end as the change alone would leave them, and other widgets are untouched. |
| BindingExtensions.DataContextChangeKeepsOthers | Source/Eto/Binding/BindingExtensions.cs:136-139 | A binding no watcher names is unchanged by a context change. |
| EtoEnvironment.Convert | Source/Eto.Platform.Windows/EtoEnvironmentHandler.cs:11-22 | ApplicationSettings maps to ApplicationData and Documents to MyDocuments (both iff). Every other value fails with NotSupported. |
| EtoEnvironment.ConvertRoundTrip | Source/Eto.Platform.Windows/EtoEnvironmentHandler.cs:11-22 | Convert is a bijection between the folders it supports and the platform folders. |
| EtoEnvironment.GetFolderPath | Source/Eto.Platform.Windows/EtoEnvironmentHandler.cs:24-32 | ApplicationResources is answered from the entry assembly without Convert. Every other value gets the platform folder Convert gives, or fails as Convert does. |
| EtoEnvironment.GetFolderPathFailsOnlyOffTheEnum | Source/Eto.Platform.Windows/EtoEnvironmentHandler.cs:24-32 | The lookup fails iff the value is outside the named members, so ApplicationResources never hits the NotSupported path. |

## Findings

| source | as written | input that shows it | evidently intended | confidence | as-written member | corrected member |
|---|---|---|---|---|---|---|
| Source/Eto.Platform.Windows/Forms/Controls/TreeViewHandler.cs:130-135 | `GetImageKey` looks the image up in `images`, but never stores the new key there. Every call for an image generates a new key and adds the image to the image list again. | Two items sharing one image: the second lookup misses, and the list gets a second copy under a second key. | The new key is stored in `images`, so an image gets one key and one list entry. | medium, not executed | TreeView.ImageKeyAsWritten (TreeView.ImageKeyAsWrittenDuplicates) | TreeView.ImageKeyCached (TreeView.ImageKeyCachedReuses, TreeView.CachedKeysAreKeyFor) |

Population (`TreeView.PopulateNodes`) takes image keys from a function of the image. That is the
corrected behaviour: one key per image.

## Left out

- Objective-C plumbing in `MacView.cs` is not modelled. This covers `AddMethod` and selector
  installation (kept only as the set of overridden selectors), `AttachEvent`'s event-to-native
  registrations, tracking areas, focus and first responder, background colour and layers,
  `Invalidate`, printing and `Location`.
- `PointToScreen` and `PointFromScreen` are not modelled: they depend on native window
  conversions and floating-point coordinates.
- Key-down and key-up dispatch are not modelled: whether a key is handled is decided by
  `MacEventView`, which is not part of this model.
- `GetNaturalSize`'s native measurement becomes the input `fit`. The `availableSize` argument is
  dropped because the modelled code never reads it.
- MacView.NaturalSize: measuring resizes the control with `SizeToFit` and, when the widget is
  loaded, writes the old frame size back. Once SizeChanged is attached each write can post a
  frame-changed notification, raise SizeChanged and move the recorded frame size. The model
  raises nothing here and leaves the recorded size untouched; an unloaded control also keeps its
  fitted frame, which the model does not track.
- MacView.GetPreferredSize: a measurement it triggers has the frame writes and possible
  SizeChanged events described for `MacView.NaturalSize`; the model leaves the recorded frame size
  untouched.
- MacView.LayoutIfNeeded: the parent layout's `UpdateParentLayout` call and the native frame
  changes appear only as the `parentUpdated` flag. A loaded widget always re-measures, so the
  frame writes of `MacView.NaturalSize` can raise SizeChanged and move the recorded frame size;
  the model leaves both untouched.
- MacView.SetSize: when the re-layout fails for want of a parent layout, the preferred size, the
  auto-size flag and the frame size already recorded, and the SizeChanged event already raised,
  are not kept in the result; only the error is. `Conversions.SetSizeWithAuto` is not part of this
  model: its frame write appears only as the size the frame-changed observer reads. Its two
  measurements have the frame writes of `MacView.NaturalSize`, whose notifications the model
  does not raise.
- MacView.SetVisible: when the re-layout fails for want of a parent layout, the native `Hidden`
  flag already set is not kept in the result; only the error is. Its two measurements have the
  frame writes of `MacView.NaturalSize`, which can raise SizeChanged and move the recorded frame
  size; the model leaves both untouched.
- MacView.FiredHasNoRepeats: holds only for notifications handled one after another. The source
  records the size after raising `SizeChanged`, so a handler that resizes the view and causes a
  nested notification can make the same size fire twice; nesting is not modelled.
- `BindingExtensions.cs` only builds dual bindings and registers them. Value synchronisation,
  direction rules, re-entrancy guards and unbinding live elsewhere and are not modelled.
- Null defaults are not wired uniformly: only the data-context overloads and the object-value
  overload accept them. In the plain property and source-binding overloads, only the
  widget-side `ObjectBinding` they build has its null values left at null; the source-binding
  overload keeps the caller's source binding as given.
- PixelLayout.Origin: frame heights and origins are floats in the source. They are modelled as
  integers, so the float rounding of the final subtraction is not modelled.
- PixelLayout.Add: the native subview is attached and the parent layout updated. These appear
  only as the `positioned` and `parentUpdated` flags.
- `OnLoadComplete`'s frame observer is not modelled; it only calls `LayoutChildren`, which is
  modelled. Setting the loaded flag is modelled as `PixelLayout.LoadComplete`.
- The tree view's `RefreshItem` is not modelled: it matches an item against native node objects,
  so its matching is not a reliable contract.
- The `SelectedItem` setter is not modelled: it relies on WinForms' recursive, case-insensitive
  `Nodes.Find`, and the source marks it unfinished.
- The tree view's `ContextMenu` property is not modelled: it only forwards to the native control.
- TreeView.ImageKey: states only that a null image gives a null key. Actual keys are fresh GUIDs,
  which are an input here.
- TreeView.PopulateNode: an image gets the one key `keyFor` gives it, the corrected behaviour
  recorded under Findings. The source draws a fresh GUID on every lookup, so two nodes with one
  image get different keys there.
- TreeView.PopulateNodes: as for `TreeView.PopulateNode`, keys are one per image rather than one
  per lookup.
- `EmptyName` is a GUID drawn once per process at run time. The model uses a fixed string.
- The internals of `DualBinding`, `ObjectBinding`, `PropertyBinding` and `DelegateBinding` are not
  modelled: value synchronisation, direction semantics, re-entrancy and unbinding are not part of
  this model. The bindings appear only as descriptions of what they are built from.
- The two-name `DualBinding` constructor is not visible. It is taken to build property bindings
  on both objects, with null defaults of null.
- Null arguments to parameters typed as widgets or bindings are not modelled; in the source they
  would raise a null reference.
- The `GetFolderPath` path lookups (`Assembly`, `Environment`) are I/O. Only which lookup is made
  is modelled.
- These context files are not part of this model: `WpfContainer.cs`, `ScreenHandler.cs`,
  `FontsHandler.cs`, `PrintDocumentHandler.cs`, `PrintDialogHandler.cs` and
  `CheckToolBarButtonHandler.cs`. They hold native property forwarding, floating-point sizes,
  DPI scaling and system font lists.

=== FILE: binding_extensions.dfy ===
/** The `Bind` extension methods: how each overload builds a dual binding
    from widget- and source-side bindings, which widget's binding collection
    it is appended to, how null defaults are wired, and how a data-context
    binding follows changes of the widget's data context.

    The bindings themselves are descriptions: their value synchronisation
    is not part of this model. */
module BindingExtensions {
  import opened Results

  /** A widget by identity; `isInstance` says whether it is an
      `InstanceWidget` (the kind that has a data context). */
  datatype WidgetRef = WidgetRef(id: nat, isInstance: bool)

  /** A value a binding can hold: null, a widget, or any other object. */
  datatype Obj = Null | AWidget(widget: WidgetRef) | Other(id: nat)

  datatype Mode = TwoWay | OneWay | OneWayToSource

  /** A member access such as `w => w.Text`; anything else is not a member
      expression and fails the cast. */
  datatype Expr = MemberAccess(member: string) | OtherExpr

  /** A binding that needs a data item: a named property, the data context
      of a widget, or one supplied by the caller. */
  datatype Indirect = PropertyBinding(property: string) | DataContextOf | CallerIndirect(id: nat)

  /** An `ObjectBinding`: an indirect binding applied to a fixed data item,
      with the values used when a read or a write meets null. */
  datatype ObjectBinding = ObjectBinding(dataItem: Obj, path: Indirect, gettingNullValue: Obj, settingNullValue: Obj)

  /** A binding with its own value: an object binding or one the caller made. */
  datatype Direct = Object(binding: ObjectBinding) | CallerDirect(id: nat)

  /** A `DualBinding`, with an identity standing for its object reference. */
  datatype Dual = DualBinding(id: nat, source: Direct, target: Direct, mode: Mode)

  /** What a widget's `Bindings` collection holds: dual bindings, and object
      bindings on a widget's data context that retarget the dual binding
      with the given identity when the context changes. */
  datatype Binding = RegisteredDual(dual: Dual) | ContextWatcher(watch: ObjectBinding, retargets: nat)

  type Registry = map<WidgetRef, seq<Binding>>

  function BindingsOf(reg: Registry, w: WidgetRef): seq<Binding> {
    if w in reg then reg[w] else []
  }

  /** `widget.Bindings.Add(b)`. */
  function Register(reg: Registry, w: WidgetRef, b: Binding): (r: Registry)
    ensures Appended(reg, r, w, [b])
  {
    reg[w := BindingsOf(reg, w) + [b]]
  }

  /** `r` is `reg` with `added` appended to the collection of `w` and every
      other widget's collection as it was. */
  ghost predicate Appended(reg: Registry, r: Registry, w: WidgetRef, added: seq<Binding>) {
    && BindingsOf(r, w) == BindingsOf(reg, w) + added
    && forall v :: v != w ==> BindingsOf(r, v) == BindingsOf(reg, v)
  }

  /** The identity a collection entry refers to: a dual binding's own, or
      the one a watcher retargets. */
  function Identity(b: Binding): nat {
    match b
    case RegisteredDual(d) => d.id
    case ContextWatcher(_, target) => target
  }

  /** `id` names no binding in any collection: it stands for a newly
      allocated `DualBinding`, whose reference no registered entry can hold. */
  ghost predicate IsNew(reg: Registry, id: nat) {
    forall w, i | w in reg && 0 <= i < |reg[w]| :: Identity(reg[w][i]) != id
  }

  /** An object binding on a named property, with null defaults of null. */
  function OnProperty(item: Obj, property: string): ObjectBinding {
    ObjectBinding(item, PropertyBinding(property), Null, Null)
  }

  datatype Bound = Bound(binding: Dual, registry: Registry)

  /** `Bind(widget, widgetPropertyName, source, sourcePropertyName, mode)`:
      one dual binding from the source's property to the widget's,
      appended to the widget's bindings and returned. */
  function BindProperty(reg: Registry, widget: WidgetRef, widgetProperty: string,
                        source: Obj, sourceProperty: string, id: nat,
                        mode: Mode := TwoWay): (r: Bound)
    requires IsNew(reg, id)
    ensures r.binding.id == id && r.binding.mode == mode
    ensures r.binding.source == Object(OnProperty(source, sourceProperty))
    ensures r.binding.target == Object(OnProperty(AWidget(widget), widgetProperty))
    ensures Appended(reg, r.registry, widget, [RegisteredDual(r.binding)])
  {
    var binding := DualBinding(id, Object(OnProperty(source, sourceProperty)),
                                   Object(OnProperty(AWidget(widget), widgetProperty)), mode);
    Bound(binding, Register(reg, widget, RegisteredDual(binding)))
  }

  /** `Bind(widget, widgetPropertyName, sourceBinding, mode)`: the caller's
      binding is the source; the widget's property is the target. */
  function BindSource(reg: Registry, widget: WidgetRef, widgetProperty: string,
                      sourceBinding: Direct, id: nat, mode: Mode := TwoWay): (r: Bound)
    requires IsNew(reg, id)
    ensures r.binding == DualBinding(id, sourceBinding, Object(OnProperty(AWidget(widget), widgetProperty)), mode)
    ensures Appended(reg, r.registry, widget, [RegisteredDual(r.binding)])
  {
    var binding := DualBinding(id, sourceBinding, Object(OnProperty(AWidget(widget), widgetProperty)), mode);
    Bound(binding, Register(reg, widget, RegisteredDual(binding)))
  }

  /** `Bind(this ObjectBinding widgetBinding, valueBinding, mode)`: the value
      binding is the source, the widget binding the target. The binding is
      registered only when the widget binding's data item is an instance
      widget; otherwise it is returned unregistered. */
  function BindObject(reg: Registry, widgetBinding: ObjectBinding, valueBinding: Direct,
                      id: nat, mode: Mode := TwoWay): (r: Bound)
    requires IsNew(reg, id)
    ensures r.binding == DualBinding(id, valueBinding, Object(widgetBinding), mode)
    ensures IsInstanceWidget(widgetBinding.dataItem) ==>
      Appended(reg, r.registry, widgetBinding.dataItem.widget, [RegisteredDual(r.binding)])
    ensures !IsInstanceWidget(widgetBinding.dataItem) ==> r.registry == reg
  {
    var binding := DualBinding(id, valueBinding, Object(widgetBinding), mode);
    if IsInstanceWidget(widgetBinding.dataItem) then
      Bound(binding, Register(reg, widgetBinding.dataItem.widget, RegisteredDual(binding)))
    else
      Bound(binding, reg)
  }

  /** `item as InstanceWidget` succeeds. */
  predicate IsInstanceWidget(item: Obj) {
    item.AWidget? && item.widget.isInstance
  }

  /** The object binding that watches a widget's data context. */
  function ContextBinding(w: WidgetRef): ObjectBinding {
    ObjectBinding(AWidget(w), DataContextOf, Null, Null)
  }

  /** `Bind(this ObjectBinding widgetBinding, dataContextBinding, mode,
      defaultWidgetValue, defaultContextValue)`: fails unless the widget
      binding's data item is an instance widget. Otherwise the source reads
      the widget's current data context through `dataContextBinding`, with
      the null defaults wired, and the widget's collection gets the dual
      binding followed by the watcher that retargets it. */
  function BindObjectToContext(reg: Registry, widgetBinding: ObjectBinding, dataContextBinding: Indirect,
                               dataContext: Obj, id: nat, mode: Mode := TwoWay,
                               defaultWidgetValue: Obj := Null, defaultContextValue: Obj := Null): (r: Result<Bound>)
    requires IsNew(reg, id)
    ensures r.Throws? <==> !IsInstanceWidget(widgetBinding.dataItem)
    ensures r.Throws? ==> r.error == ArgumentOutOfRange
    ensures r.Ok? ==>
      && r.value.binding == DualBinding(id,
           Object(ObjectBinding(dataContext, dataContextBinding, defaultWidgetValue, defaultContextValue)),
           Object(widgetBinding), mode)
      && Appended(reg, r.value.registry, widgetBinding.dataItem.widget,
           [RegisteredDual(r.value.binding), ContextWatcher(ContextBinding(widgetBinding.dataItem.widget), id)])
  {
    if !IsInstanceWidget(widgetBinding.dataItem) then Throws(ArgumentOutOfRange)
    else
      var widget := widgetBinding.dataItem.widget;
      var valueBinding := ObjectBinding(dataContext, dataContextBinding, defaultWidgetValue, defaultContextValue);
      var b := BindObject(reg, widgetBinding, Object(valueBinding), id, mode);
      var watcher := ContextWatcher(ContextBinding(widget), b.binding.id);
      assert BindingsOf(b.registry, widget) + [watcher]
          == BindingsOf(reg, widget) + [RegisteredDual(b.binding), watcher];
      Ok(Bound(b.binding, Register(b.registry, widget, watcher)))
  }

  /** `Bind(widget, widgetBinding, dataContextBinding, mode, ...)`: the
      widget side is the widget bound through `widgetBinding`. An instance
      widget never takes the failing path. */
  function BindIndirectToContext(reg: Registry, widget: WidgetRef, widgetBinding: Indirect,
                                 dataContextBinding: Indirect, dataContext: Obj, id: nat,
                                 mode: Mode := TwoWay, defaultWidgetValue: Obj := Null,
                                 defaultContextValue: Obj := Null): (r: Bound)
    requires IsNew(reg, id)
    requires widget.isInstance
    ensures r.binding == DualBinding(id,
      Object(ObjectBinding(dataContext, dataContextBinding, defaultWidgetValue, defaultContextValue)),
      Object(ObjectBinding(AWidget(widget), widgetBinding, Null, Null)), mode)
    ensures Appended(reg, r.registry, widget, [RegisteredDual(r.binding), ContextWatcher(ContextBinding(widget), id)])
  {
    BindObjectToContext(reg, ObjectBinding(AWidget(widget), widgetBinding, Null, Null), dataContextBinding,
                        dataContext, id, mode, defaultWidgetValue, defaultContextValue).value
  }

  /** `Bind(widget, widgetPropertyName, dataContextPropertyName, mode, ...)`:
      both sides are named properties. */
  function BindDataContext(reg: Registry, widget: WidgetRef, widgetProperty: string,
                           dataContextProperty: string, dataContext: Obj, id: nat,
                           mode: Mode := TwoWay, defaultWidgetValue: Obj := Null,
                           defaultContextValue: Obj := Null): (r: Bound)
    requires IsNew(reg, id)
    requires widget.isInstance
    ensures r.binding.source == Object(ObjectBinding(dataContext, PropertyBinding(dataContextProperty),
                                                     defaultWidgetValue, defaultContextValue))
    ensures r.binding.target == Object(OnProperty(AWidget(widget), widgetProperty))
    ensures r.binding.id == id && r.binding.mode == mode
    ensures Appended(reg, r.registry, widget, [RegisteredDual(r.binding), ContextWatcher(ContextBinding(widget), id)])
  {
    BindIndirectToContext(reg, widget, PropertyBinding(widgetProperty), PropertyBinding(dataContextProperty),
                          dataContext, id, mode, defaultWidgetValue, defaultContextValue)
  }

  /** `Bind(widget, widgetBinding, valueBinding, mode)`: the widget side is
      the widget bound through `widgetBinding`; an instance widget always
      registers the binding. */
  function BindIndirect(reg: Registry, widget: WidgetRef, widgetBinding: Indirect, valueBinding: Direct,
                        id: nat, mode: Mode := TwoWay): (r: Bound)
    requires IsNew(reg, id)
    requires widget.isInstance
    ensures r.binding == DualBinding(id, valueBinding, Object(ObjectBinding(AWidget(widget), widgetBinding, Null, Null)), mode)
    ensures Appended(reg, r.registry, widget, [RegisteredDual(r.binding)])
  {
    BindObject(reg, ObjectBinding(AWidget(widget), widgetBinding, Null, Null), valueBinding, id, mode)
  }

  /** `Bind(widget, widgetBinding, objectValue, objectBinding, mode, ...)`:
      the source is `objectBinding` applied to `objectValue`, with the
      default widget value used when reading null and the default context
      value used when writing null. */
  function BindObjectValue(reg: Registry, widget: WidgetRef, widgetBinding: Indirect, objectValue: Obj,
                           objectBinding: Indirect, id: nat, mode: Mode := TwoWay,
                           defaultWidgetValue: Obj := Null, defaultContextValue: Obj := Null): (r: Bound)
    requires IsNew(reg, id)
    requires widget.isInstance
    ensures r.binding.source == Object(ObjectBinding(objectValue, objectBinding, defaultWidgetValue, defaultContextValue))
    ensures r.binding.target == Object(ObjectBinding(AWidget(widget), widgetBinding, Null, Null))
    ensures r.binding.id == id && r.binding.mode == mode
    ensures Appended(reg, r.registry, widget, [RegisteredDual(r.binding)])
  {
    var valueBinding := ObjectBinding(objectValue, objectBinding, defaultWidgetValue, defaultContextValue);
    BindIndirect(reg, widget, widgetBinding, Object(valueBinding), id, mode)
  }

  /** The member name of a member expression; the cast fails otherwise. */
  function MemberName(e: Expr): (r: Result<string>)
    ensures r.Ok? <==> e.MemberAccess?
    ensures r.Ok? ==> r.value == e.member
    ensures r.Throws? ==> r.error == InvalidCast
  {
    match e
    case MemberAccess(m) => Ok(m)
    case OtherExpr => Throws(InvalidCast)
  }

  /** `Bind(widget, w => w.P, source, s => s.Q, mode)`. */
  function BindMembers(reg: Registry, widget: WidgetRef, widgetProperty: Expr, source: Obj,
                       sourceProperty: Expr, id: nat, mode: Mode := TwoWay): (r: Result<Bound>)
    requires IsNew(reg, id)
    requires widget.isInstance
    ensures r.Throws? <==> !widgetProperty.MemberAccess? || !sourceProperty.MemberAccess?
    ensures r.Throws? ==> r.error == InvalidCast
  {
    var w :- MemberName(widgetProperty);
    var s :- MemberName(sourceProperty);
    Ok(BindProperty(reg, widget, w, source, s, id, mode))
  }

  /** `Bind(widget, w => w.P, (DC c) => c.Q, mode, ...)`. */
  function BindDataContextMembers(reg: Registry, widget: WidgetRef, widgetProperty: Expr,
                                  sourceProperty: Expr, dataContext: Obj, id: nat, mode: Mode := TwoWay,
                                  defaultWidgetValue: Obj := Null, defaultContextValue: Obj := Null): (r: Result<Bound>)
    requires IsNew(reg, id)
    requires widget.isInstance
    ensures r.Throws? <==> !widgetProperty.MemberAccess? || !sourceProperty.MemberAccess?
    ensures r.Throws? ==> r.error == InvalidCast
  {
    var w :- MemberName(widgetProperty);
    var s :- MemberName(sourceProperty);
    Ok(BindDataContext(reg, widget, w, s, dataContext, id, mode, defaultWidgetValue, defaultContextValue))
  }

  /** The expression overloads are the name-based overloads applied to the
      member names. */
  lemma ExpressionOverloadsReduce(reg: Registry, widget: WidgetRef, p: string, q: string,
                                  source: Obj, dataContext: Obj, id: nat, mode: Mode,
                                  defaultWidgetValue: Obj, defaultContextValue: Obj)
    requires IsNew(reg, id)
    requires widget.isInstance
    ensures BindMembers(reg, widget, MemberAccess(p), source, MemberAccess(q), id, mode)
         == Ok(BindProperty(reg, widget, p, source, q, id, mode))
    ensures BindDataContextMembers(reg, widget, MemberAccess(p), MemberAccess(q), dataContext, id, mode,
                                   defaultWidgetValue, defaultContextValue)
         == Ok(BindDataContext(reg, widget, p, q, dataContext, id, mode, defaultWidgetValue, defaultContextValue))
  {
  }

  /** Every overload defaults to a two-way binding with null defaults. */
  lemma DefaultsAreTwoWayAndNull(reg: Registry, widget: WidgetRef, p: string, q: string, source: Obj,
                                 dataContext: Obj, id: nat)
    requires IsNew(reg, id)
    requires widget.isInstance
    ensures BindProperty(reg, widget, p, source, q, id).binding.mode == TwoWay
    ensures BindDataContext(reg, widget, p, q, dataContext, id).binding.mode == TwoWay
    ensures BindDataContext(reg, widget, p, q, dataContext, id).binding.source
         == Object(OnProperty(dataContext, q))
  {
  }

  /** A widget's bindings after its data context changes to `context`: every
      dual binding that one of the widget's watchers retargets reads from
      the new context; everything else is as it was. */
  function DataContextChanged(reg: Registry, w: WidgetRef, context: Obj): (r: Registry)
    ensures forall v :: v != w ==> BindingsOf(r, v) == BindingsOf(reg, v)
    ensures |BindingsOf(r, w)| == |BindingsOf(reg, w)|
    ensures forall i :: 0 <= i < |BindingsOf(reg, w)| ==>
      BindingsOf(r, w)[i] == Retarget(BindingsOf(reg, w)[i], Watched(BindingsOf(reg, w)), context)
  {
    var bs := BindingsOf(reg, w);
    var ids := Watched(bs);
    if w in reg then reg[w := seq(|bs|, i requires 0 <= i < |bs| => Retarget(bs[i], ids, context))] else reg
  }

  /** The identities of the dual bindings watched in a collection. */
  function Watched(bs: seq<Binding>): set<nat> {
    set i | 0 <= i < |bs| && bs[i].ContextWatcher? :: bs[i].retargets
  }

  /** The watcher's handler: the retargeted binding's source (an object
      binding) takes the new context as its data item. */
  function Retarget(b: Binding, ids: set<nat>, context: Obj): (r: Binding)
    ensures r.RegisteredDual? <==> b.RegisteredDual?
    ensures r.RegisteredDual? ==> r.dual.id == b.dual.id && r.dual.target == b.dual.target && r.dual.mode == b.dual.mode
    ensures b.RegisteredDual? && b.dual.id in ids && b.dual.source.Object? ==>
      r.dual.source == Object(b.dual.source.binding.(dataItem := context))
    ensures !(b.RegisteredDual? && b.dual.id in ids && b.dual.source.Object?) ==> r == b
  {
    if b.RegisteredDual? && b.dual.id in ids && b.dual.source.Object? then
      RegisteredDual(b.dual.(source := Object(b.dual.source.binding.(dataItem := context))))
    else b
  }

  /** After a data-context binding is made, a change of the widget's data
      context makes the registered binding read from the new context,
      keeping its path and null defaults; the widget's earlier bindings end
      up exactly as the same change would have left them without the new
      binding, and bindings on other widgets are untouched. */
  lemma DataContextChangeRetargets(reg: Registry, widget: WidgetRef, widgetProperty: string,
                                   dataContextProperty: string, dataContext: Obj, id: nat,
                                   mode: Mode, defaultWidgetValue: Obj, defaultContextValue: Obj,
                                   context: Obj)
    requires IsNew(reg, id)
    requires widget.isInstance
    ensures var b := BindDataContext(reg, widget, widgetProperty, dataContextProperty, dataContext, id,
                                     mode, defaultWidgetValue, defaultContextValue);
      var after := DataContextChanged(b.registry, widget, context);
      var k := |BindingsOf(reg, widget)|;
      && |BindingsOf(after, widget)| == k + 2
      && (forall i :: 0 <= i < k ==>
            BindingsOf(after, widget)[i] == BindingsOf(DataContextChanged(reg, widget, context), widget)[i])
      && BindingsOf(after, widget)[k] == RegisteredDual(b.binding.(source :=
           Object(ObjectBinding(context, PropertyBinding(dataContextProperty), defaultWidgetValue, defaultContextValue))))
      && BindingsOf(after, widget)[k + 1] == ContextWatcher(ContextBinding(widget), id)
      && (forall v :: v != widget ==> BindingsOf(after, v) == BindingsOf(reg, v))
  {
    var b := BindDataContext(reg, widget, widgetProperty, dataContextProperty, dataContext, id,
                             mode, defaultWidgetValue, defaultContextValue);
    var before := BindingsOf(reg, widget);
    var bs := BindingsOf(b.registry, widget);
    var k := |before|;
    assert bs == before + [RegisteredDual(b.binding), ContextWatcher(ContextBinding(widget), id)];
    assert bs[k + 1] == ContextWatcher(ContextBinding(widget), id);
    assert Watched(bs) == Watched(before) + {id} by {
      forall x | x in Watched(bs) ensures x in Watched(before) + {id} {
        var i :| 0 <= i < |bs| && bs[i].ContextWatcher? && bs[i].retargets == x;
        if i < k { assert before[i] == bs[i]; }
      }
      forall x | x in Watched(before) ensures x in Watched(bs) {
        var i :| 0 <= i < |before| && before[i].ContextWatcher? && before[i].retargets == x;
        assert bs[i] == before[i];
      }
    }
    forall i | 0 <= i < k
      ensures Retarget(bs[i], Watched(bs), context) == Retarget(before[i], Watched(before), context)
    {
      assert widget in reg && before[i] == reg[widget][i];
      assert Identity(before[i]) != id;
      assert bs[i] == before[i];
    }
  }

  /** A change of data context leaves alone every binding whose identity no
      watcher of that widget names. */
  lemma DataContextChangeKeepsOthers(reg: Registry, w: WidgetRef, context: Obj, i: nat)
    requires i < |BindingsOf(reg, w)|
    requires BindingsOf(reg, w)[i].RegisteredDual?
    requires BindingsOf(reg, w)[i].dual.id !in Watched(BindingsOf(reg, w))
    ensures BindingsOf(DataContextChanged(reg, w, context), w)[i] == BindingsOf(reg, w)[i]
  {
  }
}

=== FILE: environment.dfy ===
/** The Windows environment handler: how the toolkit's special folders map
    onto the platform's special folders, and which lookup `GetFolderPath`
    performs. The path lookups themselves are outside the model. */
module EtoEnvironment {
  import opened Results

  /** The toolkit's folder enumeration. Its declaration is not part of this
      model, so the three named members are assumed from their uses in the
      handler. `Undefined` stands for any other integer cast to the
      enumeration type, which C# permits; its values are assumed distinct
      from the named members' values. */
  datatype EtoSpecialFolder = ApplicationSettings | ApplicationResources | Documents | Undefined(value: int)

  /** The platform folders the handler converts to. */
  datatype SpecialFolder = ApplicationData | MyDocuments

  /** Which lookup answers `GetFolderPath`: the directory of the entry
      assembly, or the platform's path for a special folder. */
  datatype FolderLookup = EntryAssemblyDirectory | SystemFolder(folder: SpecialFolder)

  /** `Convert`: settings map to application data, documents to my
      documents; every other value is not supported. */
  function Convert(folder: EtoSpecialFolder): (r: Result<SpecialFolder>)
    ensures folder == ApplicationSettings <==> r == Ok(ApplicationData)
    ensures folder == Documents <==> r == Ok(MyDocuments)
    ensures r.Throws? <==> folder != ApplicationSettings && folder != Documents
    ensures r.Throws? ==> r.error == NotSupported
  {
    match folder
    case ApplicationSettings => Ok(ApplicationData)
    case Documents => Ok(MyDocuments)
    case _ => Throws(NotSupported)
  }

  /** The toolkit folder a platform folder came from. */
  function FromSpecialFolder(f: SpecialFolder): EtoSpecialFolder {
    match f
    case ApplicationData => ApplicationSettings
    case MyDocuments => Documents
  }

  /** `Convert` is a bijection between the folders it supports and the
      platform folders. */
  lemma ConvertRoundTrip(folder: EtoSpecialFolder, f: SpecialFolder)
    ensures Convert(FromSpecialFolder(f)) == Ok(f)
    ensures Convert(folder).Ok? ==> FromSpecialFolder(Convert(folder).value) == folder
  {
  }

  /** `GetFolderPath`: application resources are answered from the entry
      assembly without calling `Convert`; every other value goes through
      `Convert`, and fails when it does. */
  function GetFolderPath(folder: EtoSpecialFolder): (r: Result<FolderLookup>)
    ensures folder == ApplicationResources ==> r == Ok(EntryAssemblyDirectory)
    ensures folder != ApplicationResources && Convert(folder).Ok? ==> r == Ok(SystemFolder(Convert(folder).value))
    ensures folder != ApplicationResources && Convert(folder).Throws? ==> r == Throws(NotSupported)
  {
    match folder
    case ApplicationResources => Ok(EntryAssemblyDirectory)
    case _ =>
      match Convert(folder)
      case Ok(f) => Ok(SystemFolder(f))
      case Throws(e) => Throws(e)
  }

  /** Every named member of the enumeration has a path; only values outside
      it fail. */
  lemma GetFolderPathFailsOnlyOffTheEnum(folder: EtoSpecialFolder)
    ensures GetFolderPath(folder).Throws? <==> folder.Undefined?
  {
  }
}

=== FILE: geometry.dfy ===
/** Integer sizes, points and rectangles, with the unchecked 32-bit
    arithmetic of the toolkit's `Size` and `Point` structs. */
module Geometry {

  const Int32Min: int := -0x8000_0000
  const Int32Max: int := 0x7FFF_FFFF

  predicate InInt32(x: int) {
    Int32Min <= x <= Int32Max
  }

  /** Reduces an unbounded integer to the two's-complement 32-bit value that
      unchecked C# arithmetic would produce. */
  function Wrap32(x: int): (r: int)
    ensures InInt32(r)
    ensures (r - x) % 0x1_0000_0000 == 0
    ensures InInt32(x) ==> r == x
  {
    var m := (x - Int32Min) % 0x1_0000_0000;
    m + Int32Min
  }

  /** Wrapping after each step or only once gives the same 32-bit value. */
  lemma WrapOfWrappedSum(a: int, b: int, c: int)
    ensures Wrap32(Wrap32(a + b) + c) == Wrap32(a + b + c)
  {
  }

  datatype Size = Size(width: int, height: int)
  datatype Point = Point(x: int, y: int)
  datatype Rect = Rect(origin: Point, size: Size)

  const Empty: Size := Size(0, 0)

  /** `Size.Max`: the larger value in each component. */
  function Max(a: Size, b: Size): (r: Size)
    ensures r.width >= a.width && r.width >= b.width
    ensures r.height >= a.height && r.height >= b.height
    ensures r.width == a.width || r.width == b.width
    ensures r.height == a.height || r.height == b.height
  {
    Size(if a.width >= b.width then a.width else b.width,
         if a.height >= b.height then a.height else b.height)
  }

  /** `Size.Min`: the smaller value in each component. */
  function Min(a: Size, b: Size): (r: Size)
    ensures r.width <= a.width && r.width <= b.width
    ensures r.height <= a.height && r.height <= b.height
    ensures r.width == a.width || r.width == b.width
    ensures r.height == a.height || r.height == b.height
  {
    Size(if a.width <= b.width then a.width else b.width,
         if a.height <= b.height then a.height else b.height)
  }

  /** `size + new Size(point)`: 32-bit wrapping addition in each component. */
  function Plus(s: Size, p: Point): (r: Size)
    ensures InInt32(r.width) && InInt32(r.height)
    ensures InInt32(s.width + p.x) ==> r.width == s.width + p.x
    ensures InInt32(s.height + p.y) ==> r.height == s.height + p.y
  {
    Size(Wrap32(s.width + p.x), Wrap32(s.height + p.y))
  }

  /** Component-wise ordering: `a` fits inside `b`. */
  predicate FitsIn(a: Size, b: Size) {
    a.width <= b.width && a.height <= b.height
  }
}

=== FILE: mac_view.dfy ===
/** The platform-independent sizing rules of the macOS view handler
    (`MacView<T, W>`): preferred size, re-layout decisions, the Size and
    Visible setters, and the filter on frame-size notifications.

    Native measurement is an input: `fit` is the size the native control
    reports after `SizeToFit`, or `None` when the view is not an
    `NSControl` (its natural size is then `Empty` and nothing is cached). */
module MacView {
  import opened Geometry
  import opened Results

  datatype View = View(
    autoSize: bool,
    preferredSize: Option<Size>,
    minimumSize: Option<Size>,
    maximumSize: Option<Size>,
    naturalSize: Option<Size>,   // cached natural size
    oldFrameSize: Option<Size>)  // last size for which SizeChanged fired

  /** The handler's constructor. */
  function New(): (v: View)
    ensures v.autoSize
    ensures v.preferredSize.None? && v.minimumSize.None? && v.maximumSize.None?
    ensures v.naturalSize.None? && v.oldFrameSize.None?
  {
    View(true, None, None, None, None, None)
  }

  /** What a fresh native measurement yields. */
  function Measure(fit: Option<Size>): Size {
    fit.GetOr(Empty)
  }

  datatype Measured = Measured(size: Size, view: View)

  /** `GetNaturalSize`: the cached size if there is one, otherwise a fresh
      measurement, cached only for native controls. */
  function NaturalSize(v: View, fit: Option<Size>): (r: Measured)
    ensures v.naturalSize.Some? ==> r.size == v.naturalSize.value && r.view == v
    ensures v.naturalSize.None? ==> r.size == Measure(fit) && r.view == v.(naturalSize := fit)
  {
    match v.naturalSize
    case Some(cached) => Measured(cached, v)
    case None =>
      match fit
      case Some(measured) => Measured(measured, v.(naturalSize := Some(measured)))
      case None => Measured(Empty, v)
  }

  /** Once a native control has been measured, later measurements return the
      cached size, whatever the control would report now. */
  lemma NaturalSizeIsCached(v: View, fit: Option<Size>, later: Option<Size>)
    requires fit.Some?
    ensures NaturalSize(NaturalSize(v, fit).view, later).size == NaturalSize(v, fit).size
  {
  }

  /** The size requested before clamping: a component of an explicit
      preferred size replaces the natural one only when it is not negative,
      and only when auto-sizing is off. */
  function Requested(v: View, natural: Size): (r: Size)
    ensures v.autoSize || v.preferredSize.None? ==> r == natural
    ensures !v.autoSize && v.preferredSize.Some? ==>
      && r.width == (if v.preferredSize.value.width >= 0 then v.preferredSize.value.width else natural.width)
      && r.height == (if v.preferredSize.value.height >= 0 then v.preferredSize.value.height else natural.height)
  {
    if !v.autoSize && v.preferredSize.Some? then
      var p := v.preferredSize.value;
      Size(if p.width >= 0 then p.width else natural.width,
           if p.height >= 0 then p.height else natural.height)
    else
      natural
  }

  /** The minimum is applied first, then the maximum. */
  function Clamp(s: Size, minimum: Option<Size>, maximum: Option<Size>): (r: Size)
    ensures maximum.Some? ==> FitsIn(r, maximum.value)
    ensures minimum.Some? && (maximum.None? || FitsIn(minimum.value, maximum.value)) ==> FitsIn(minimum.value, r)
    ensures (minimum.None? || FitsIn(minimum.value, s)) && (maximum.None? || FitsIn(s, maximum.value)) ==> r == s
    ensures minimum.Some? && maximum.Some? && minimum.value.width > maximum.value.width ==> r.width == maximum.value.width
    ensures minimum.Some? && maximum.Some? && minimum.value.height > maximum.value.height ==> r.height == maximum.value.height
    ensures maximum.Some? && s.width > maximum.value.width ==> r.width == maximum.value.width
    ensures maximum.Some? && s.height > maximum.value.height ==> r.height == maximum.value.height
    ensures (minimum.Some? && s.width < minimum.value.width && (maximum.None? || minimum.value.width <= maximum.value.width))
         ==> r.width == minimum.value.width
    ensures (minimum.Some? && s.height < minimum.value.height && (maximum.None? || minimum.value.height <= maximum.value.height))
         ==> r.height == minimum.value.height
    ensures (minimum.None? || minimum.value.width <= s.width) && (maximum.None? || s.width <= maximum.value.width)
         ==> r.width == s.width
    ensures (minimum.None? || minimum.value.height <= s.height) && (maximum.None? || s.height <= maximum.value.height)
         ==> r.height == s.height
  {
    var atLeast := if minimum.Some? then Max(s, minimum.value) else s;
    if maximum.Some? then Min(atLeast, maximum.value) else atLeast
  }

  /** Clamping an already clamped size changes nothing. */
  lemma ClampIdempotent(s: Size, minimum: Option<Size>, maximum: Option<Size>)
    ensures Clamp(Clamp(s, minimum, maximum), minimum, maximum) == Clamp(s, minimum, maximum)
  {
  }

  /** The preferred size computed from a given natural size. */
  function PreferredFrom(v: View, natural: Size): Size {
    Clamp(Requested(v, natural), v.minimumSize, v.maximumSize)
  }

  /** `GetPreferredSize`: natural size, overridden, then clamped. */
  function GetPreferredSize(v: View, fit: Option<Size>): (r: Measured)
    ensures r.view == NaturalSize(v, fit).view
    ensures v.maximumSize.Some? ==> FitsIn(r.size, v.maximumSize.value)
    ensures v.minimumSize.Some? && v.maximumSize.None? ==> FitsIn(v.minimumSize.value, r.size)
    ensures v.minimumSize.None? && v.maximumSize.None? && (v.autoSize || v.preferredSize.None?) ==>
      r.size == NaturalSize(v, fit).size
  {
    var n := NaturalSize(v, fit);
    Measured(PreferredFrom(v, n.size), n.view)
  }

  /** An explicit size that is not negative and lies within the bounds is
      exactly the preferred size once auto-sizing is off. */
  lemma ExplicitSizeWins(v: View, natural: Size)
    requires !v.autoSize && v.preferredSize.Some?
    requires v.preferredSize.value.width >= 0 && v.preferredSize.value.height >= 0
    requires v.minimumSize.None? || FitsIn(v.minimumSize.value, v.preferredSize.value)
    requires v.maximumSize.None? || FitsIn(v.preferredSize.value, v.maximumSize.value)
    ensures PreferredFrom(v, natural) == v.preferredSize.value
  {
  }

  /** The widget's parent layout: none (a null reference), a layout whose
      handler is not a macOS layout, or a macOS layout. */
  datatype ParentLayout = NoParent | ForeignLayout | MacLayout

  /** Whether a re-layout was reported, whether the parent layout was asked
      to update, and the view afterwards. */
  datatype Layout = Layout(relayout: bool, parentUpdated: bool, view: View)

  /** `LayoutIfNeeded`: drops the cached natural size; when the widget is
      loaded, compares a freshly computed preferred size with the old one
      (the given one, or else the current frame size). A needed re-layout
      reads the widget's parent layout, which fails when there is none, and
      updates it when it is a macOS layout. */
  function LayoutIfNeeded(v: View, oldPreferred: Option<Size>, force: bool,
                          loaded: bool, frame: Size, fit: Option<Size>,
                          parent: ParentLayout): (r: Result<Layout>)
    ensures r.Throws? <==>
      loaded && (PreferredFrom(v, Measure(fit)) != oldPreferred.GetOr(frame) || force) && parent.NoParent?
    ensures r.Throws? ==> r.error == NullReference
    ensures r.Ok? ==> (r.value.relayout <==>
      loaded && (PreferredFrom(v, Measure(fit)) != oldPreferred.GetOr(frame) || force))
    ensures r.Ok? ==> (r.value.parentUpdated <==> r.value.relayout && parent.MacLayout?)
    ensures r.Ok? ==> r.value.view.naturalSize == (if loaded then fit else None)
    ensures r.Ok? ==> r.value.view.(naturalSize := v.naturalSize) == v
  {
    var cleared := v.(naturalSize := None);
    if loaded then
      var oldSize := oldPreferred.GetOr(frame);
      var current := GetPreferredSize(cleared, fit);
      if current.size != oldSize || force then
        if parent.NoParent? then Throws(NullReference)
        else Ok(Layout(true, parent.MacLayout?, current.view))
      else
        Ok(Layout(false, false, current.view))
    else
      Ok(Layout(false, false, cleared))
  }

  /** Once a re-layout has been worked out, asking again with the size just
      computed as the old size and without forcing finds nothing to do and
      leaves the view as it is. */
  lemma LayoutSettles(v: View, oldPreferred: Option<Size>, force: bool, loaded: bool,
                      frame: Size, fit: Option<Size>, parent: ParentLayout)
    ensures var r := LayoutIfNeeded(v, oldPreferred, force, loaded, frame, fit, parent);
      r.Ok? ==>
        LayoutIfNeeded(r.value.view, Some(PreferredFrom(v, Measure(fit))), false, loaded, frame, fit, parent)
        == Ok(Layout(false, false, r.value.view))
  {
  }

  /** What the `Size` setter reports: whether SizeChanged was raised while
      the frame was written, whether a re-layout was reported, whether the
      parent layout was asked to update, and the view afterwards. */
  datatype Resize = Resize(sizeChanged: bool, relayout: bool, parentUpdated: bool, view: View)

  /** The `Size` setter: records the size as the preferred size and writes
      the native frame, turns auto-sizing off and re-lays out when the
      preferred size moved. The frame write posts a frame-changed
      notification when SizeChanged is attached; `notification` is the frame
      size the observer then reads, or `None` when nothing is posted. The
      observer runs inside the write, before the re-layout. The frame size
      itself is never consulted, since the old preferred size is given. */
  function SetSize(v: View, value: Size, loaded: bool, fit: Option<Size>,
                   parent: ParentLayout, notification: Option<Size>): (r: Result<Resize>)
    ensures r.Throws? <==> loaded && SetSizeMoves(v, value, fit) && parent.NoParent?
    ensures r.Throws? ==> r.error == NullReference
    ensures r.Ok? ==> r.value.view.preferredSize == Some(value) && !r.value.view.autoSize
    ensures r.Ok? ==> r.value.view.minimumSize == v.minimumSize && r.value.view.maximumSize == v.maximumSize
    ensures r.Ok? ==> (r.value.sizeChanged <==> notification.Some? && v.oldFrameSize != notification)
    ensures r.Ok? ==> r.value.view.oldFrameSize == (if notification.Some? then notification else v.oldFrameSize)
    ensures r.Ok? ==> (r.value.relayout <==> loaded && SetSizeMoves(v, value, fit))
    ensures r.Ok? ==> (r.value.parentUpdated <==> r.value.relayout && parent.MacLayout?)
  {
    var before := GetPreferredSize(v, fit);
    var updated := before.view.(preferredSize := Some(value), autoSize := false);
    var change := if notification.Some? then OnFrameChanged(updated, notification.value)
                  else FrameChange(false, updated);
    match LayoutIfNeeded(change.view, Some(before.size), false, loaded, Empty, fit, parent)
    case Ok(l) => Ok(Resize(change.fires, l.relayout, l.parentUpdated, l.view))
    case Throws(e) => Throws(e)
  }

  /** Setting `value` moves the preferred size: the size computed afterwards
      from a fresh measurement differs from the one computed before. */
  predicate SetSizeMoves(v: View, value: Size, fit: Option<Size>) {
    PreferredFrom(v.(preferredSize := Some(value), autoSize := false), Measure(fit))
      != PreferredFrom(v, NaturalSize(v, fit).size)
  }

  /** After setting a size that is within the bounds, the view prefers
      exactly that size. */
  lemma SetSizeThenPreferred(v: View, value: Size, loaded: bool, fit: Option<Size>,
                             parent: ParentLayout, notification: Option<Size>)
    requires value.width >= 0 && value.height >= 0
    requires v.minimumSize.None? || FitsIn(v.minimumSize.value, value)
    requires v.maximumSize.None? || FitsIn(value, v.maximumSize.value)
    ensures var r := SetSize(v, value, loaded, fit, parent, notification);
      r.Ok? ==> GetPreferredSize(r.value.view, fit).size == value
  {
    var r := SetSize(v, value, loaded, fit, parent, notification);
    if r.Ok? {
      var w := r.value.view;
      ExplicitSizeWins(w, NaturalSize(w, fit).size);
    }
  }

  datatype Visibility = Visibility(hidden: bool, relayout: bool, parentUpdated: bool, view: View)

  /** The `Visible` setter: a real change of visibility forces a re-layout
      of a loaded widget (failing without a parent layout); setting the
      current visibility does nothing. The frame size is never consulted,
      since the old preferred size is given. */
  function SetVisible(v: View, hidden: bool, value: bool, loaded: bool,
                      fit: Option<Size>, parent: ParentLayout): (r: Result<Visibility>)
    ensures r.Throws? <==> hidden == value && loaded && parent.NoParent?
    ensures r.Throws? ==> r.error == NullReference
    ensures r.Ok? ==> r.value.hidden == !value
    ensures r.Ok? ==> (r.value.relayout <==> loaded && hidden == value)
    ensures r.Ok? ==> (r.value.parentUpdated <==> r.value.relayout && parent.MacLayout?)
    ensures hidden != value ==> r == Ok(Visibility(hidden, false, false, v))
  {
    if hidden == value then
      var before := GetPreferredSize(v, fit);
      match LayoutIfNeeded(before.view, Some(before.size), true, loaded, Empty, fit, parent)
      case Ok(l) => Ok(Visibility(!value, l.relayout, l.parentUpdated, l.view))
      case Throws(e) => Throws(e)
    else
      Ok(Visibility(hidden, false, false, v))
  }

  /** Setting the visibility a successful set has just established does
      nothing; setting it back to the other value forces a re-layout again
      whenever the widget is loaded. */
  lemma SetVisibleThenAgain(v: View, hidden: bool, value: bool, loaded: bool,
                            fit: Option<Size>, parent: ParentLayout)
    ensures var r := SetVisible(v, hidden, value, loaded, fit, parent);
      r.Ok? ==>
        && SetVisible(r.value.view, r.value.hidden, value, loaded, fit, parent)
           == Ok(Visibility(r.value.hidden, false, false, r.value.view))
        && var back := SetVisible(r.value.view, r.value.hidden, !value, loaded, fit, parent);
           back.Ok? ==> back.value.hidden == value && (back.value.relayout <==> loaded)
  {
  }

  datatype FrameChange = FrameChange(fires: bool, view: View)

  /** The frame-changed observer: the widget's SizeChanged event fires for
      the first change and whenever the size differs from the last one it
      fired for; only then is that size recorded, and the source records it
      only after the event handlers have returned. The model treats each
      notification as finished before the next begins. */
  function OnFrameChanged(v: View, newSize: Size): (r: FrameChange)
    ensures r.fires <==> v.oldFrameSize != Some(newSize)
    ensures r.fires ==> r.view == v.(oldFrameSize := Some(newSize))
    ensures !r.fires ==> r.view == v
  {
    if v.oldFrameSize.None? || v.oldFrameSize.value != newSize then
      FrameChange(true, v.(oldFrameSize := Some(newSize)))
    else
      FrameChange(false, v)
  }

  /** The sizes for which SizeChanged fires over a run of notifications. */
  function Fired(v: View, sizes: seq<Size>): seq<Size>
    decreases |sizes|
  {
    if |sizes| == 0 then []
    else
      var c := OnFrameChanged(v, sizes[0]);
      (if c.fires then [sizes[0]] else []) + Fired(c.view, sizes[1..])
  }

  /** The last size recorded after a run of notifications. */
  function Recorded(v: View, sizes: seq<Size>): Option<Size>
    decreases |sizes|
  {
    if |sizes| == 0 then v.oldFrameSize
    else Recorded(OnFrameChanged(v, sizes[0]).view, sizes[1..])
  }

  /** Across any run of notifications, each handled to completion before the
      next, the widget never hears the same size twice in a row, and never
      hears again the size it heard last. */
  lemma {:induction false} FiredHasNoRepeats(v: View, sizes: seq<Size>)
    ensures forall i :: 0 <= i < |Fired(v, sizes)| - 1 ==> Fired(v, sizes)[i] != Fired(v, sizes)[i + 1]
    ensures |Fired(v, sizes)| > 0 ==> Some(Fired(v, sizes)[0]) != v.oldFrameSize
    ensures |Fired(v, sizes)| > 0 ==> Recorded(v, sizes) == Some(Fired(v, sizes)[|Fired(v, sizes)| - 1])
    ensures |Fired(v, sizes)| == 0 ==> Recorded(v, sizes) == v.oldFrameSize
    decreases |sizes|
  {
    if |sizes| > 0 {
      var c := OnFrameChanged(v, sizes[0]);
      FiredHasNoRepeats(c.view, sizes[1..]);
      var rest := Fired(c.view, sizes[1..]);
      assert Fired(v, sizes) == (if c.fires then [sizes[0]] else []) + rest;
      if c.fires && |rest| > 0 {
        assert c.view.oldFrameSize == Some(sizes[0]);
      }
    }
  }
}

=== FILE: mouse_dispatch.dfy ===
/** Which widget callbacks the macOS view handler fires for a native mouse
    event, and whether it passes the event on to the native superclass.

    Each widget callback is an input: `handles` says whether that callback
    marks the event as handled. The event arguments start unhandled. */
module MouseDispatch {

  datatype Callback = OnMouseDoubleClick | OnMouseDown | OnMouseUp | OnMouseMove | OnMouseWheel

  /** The callbacks that ran, in order, and whether the native superclass
      implementation was invoked afterwards. */
  datatype Dispatch = Dispatch(fired: seq<Callback>, callsSuper: bool)

  /** A callback offered the event, with whether it would handle it. */
  datatype Step = Step(callback: Callback, handles: bool)

  /** Reference rule: offer the event to each step in turn while it is still
      unhandled, then pass it on to the superclass if nothing handled it. */
  function Chain(steps: seq<Step>, handled: bool): (r: Dispatch)
    ensures |r.fired| <= |steps|
    ensures r.callsSuper ==> !handled
    decreases |steps|
  {
    if |steps| == 0 then Dispatch([], !handled)
    else if handled then Dispatch([], false)
    else
      var rest := Chain(steps[1..], steps[0].handles);
      Dispatch([steps[0].callback] + rest.fired, rest.callsSuper)
  }

  /** With nothing handled yet, the chain fires a prefix of the steps: up to
      and including the first that handles, or all of them; the superclass
      runs exactly when none handles. */
  lemma {:induction false} ChainStopsAtFirstHandler(steps: seq<Step>)
    ensures var r := Chain(steps, false);
      && (forall i :: 0 <= i < |r.fired| ==> r.fired[i] == steps[i].callback)
      && (forall i :: 0 <= i < |r.fired| - 1 ==> !steps[i].handles)
      && (r.callsSuper <==> forall i :: 0 <= i < |steps| ==> !steps[i].handles)
      && (r.callsSuper ==> |r.fired| == |steps|)
      && (!r.callsSuper ==> |r.fired| > 0 && steps[|r.fired| - 1].handles)
    decreases |steps|
  {
    if |steps| > 0 {
      if steps[0].handles {
        assert Chain(steps[1..], true) == Dispatch([], false);
      } else {
        ChainStopsAtFirstHandler(steps[1..]);
        assert forall i :: 1 <= i < |steps| ==> steps[i] == steps[1..][i - 1];
      }
    }
  }

  /** `TriggerMouseDown`: a double click (click count of two or more) goes
      to the double-click callback first; the mouse-down callback runs only
      if the event is still unhandled, and the superclass only if it is
      still unhandled after that. */
  function TriggerMouseDown(clickCount: int, doubleClickHandles: bool, downHandles: bool): (r: Dispatch)
    ensures clickCount >= 2 ==> |r.fired| >= 1 && r.fired[0] == OnMouseDoubleClick
    ensures clickCount < 2 ==> r.fired == [OnMouseDown]
    ensures OnMouseDown in r.fired <==> clickCount < 2 || !doubleClickHandles
    ensures r.callsSuper <==> (clickCount < 2 || !doubleClickHandles) && !downHandles
  {
    var handled := clickCount >= 2 && doubleClickHandles;
    var afterDouble := if clickCount >= 2 then [OnMouseDoubleClick] else [];
    if !handled then
      Dispatch(afterDouble + [OnMouseDown], !downHandles)
    else
      Dispatch(afterDouble, false)
  }

  /** Mouse-down dispatch is the handled-stops-propagation chain over the
      callbacks that apply to the event. */
  lemma MouseDownIsChain(clickCount: int, doubleClickHandles: bool, downHandles: bool)
    ensures TriggerMouseDown(clickCount, doubleClickHandles, downHandles) ==
      Chain((if clickCount >= 2 then [Step(OnMouseDoubleClick, doubleClickHandles)] else [])
            + [Step(OnMouseDown, downHandles)], false)
  {
    var down := [Step(OnMouseDown, downHandles)];
    assert Chain(down, false) == Dispatch([OnMouseDown], !downHandles) by {
      assert down[1..] == [];
    }
    if clickCount >= 2 {
      var steps := [Step(OnMouseDoubleClick, doubleClickHandles)] + down;
      assert steps[1..] == down;
    }
  }

  /** `TriggerMouseUp`: the mouse-up callback, then the superclass if the
      event is unhandled. */
  function TriggerMouseUp(upHandles: bool): (r: Dispatch)
    ensures r.fired == [OnMouseUp]
    ensures r.callsSuper <==> !upHandles
  {
    Dispatch([OnMouseUp], !upHandles)
  }

  /** `TriggerMouseDragged`: reported to the widget as a mouse move, then the
      superclass if unhandled. */
  function TriggerMouseDragged(moveHandles: bool): (r: Dispatch)
    ensures r.fired == [OnMouseMove]
    ensures r.callsSuper <==> !moveHandles
  {
    Dispatch([OnMouseMove], !moveHandles)
  }

  /** `TriggerMouseWheel`: a wheel event whose delta is zero in both
      components fires nothing and is swallowed; otherwise the wheel
      callback runs, then the superclass if unhandled. */
  function TriggerMouseWheel(deltaX: real, deltaY: real, wheelHandles: bool): (r: Dispatch)
    ensures deltaX == 0.0 && deltaY == 0.0 ==> r == Dispatch([], false)
    ensures deltaX != 0.0 || deltaY != 0.0 ==> r.fired == [OnMouseWheel] && (r.callsSuper <==> !wheelHandles)
  {
    if !(deltaX == 0.0 && deltaY == 0.0) then
      Dispatch([OnMouseWheel], !wheelHandles)
    else
      Dispatch([], false)
  }

  /** Up, drag and a non-zero wheel are each a one-step chain. */
  lemma SingleCallbackIsChain(handles: bool, deltaX: real, deltaY: real)
    ensures TriggerMouseUp(handles) == Chain([Step(OnMouseUp, handles)], false)
    ensures TriggerMouseDragged(handles) == Chain([Step(OnMouseMove, handles)], false)
    ensures deltaX != 0.0 || deltaY != 0.0 ==>
      TriggerMouseWheel(deltaX, deltaY, handles) == Chain([Step(OnMouseWheel, handles)], false)
  {
    assert [Step(OnMouseUp, handles)][1..] == [];
    assert [Step(OnMouseMove, handles)][1..] == [];
    assert [Step(OnMouseWheel, handles)][1..] == [];
  }
}

=== FILE: pixel_layout.dfy ===
/** The macOS absolute-position layout (`PixelLayoutHandler`): a map from
    child control to location, its preferred size, and how a location
    becomes a native frame in flipped and unflipped views. */
module PixelLayout {
  import opened Geometry
  import opened Results

  /** A child control, by identity. */
  type ControlId = nat

  datatype Layout = Layout(points: map<ControlId, Point>, loaded: bool)

  function New(): (l: Layout)
    ensures l.points == map[] && !l.loaded
  {
    Layout(map[], false)
  }

  /** `OnLoadComplete`: the layout becomes loaded and keeps every location.
      The frame observer it installs only calls `LayoutChildren`. */
  function LoadComplete(l: Layout): (r: Layout)
    ensures r.loaded && r.points == l.points
  {
    l.(loaded := true)
  }

  /** Once loading has completed, adding a child positions it and asks the
      parent layout to update, and the layout stays loaded. */
  lemma AddAfterLoad(l: Layout, child: ControlId, x: int, y: int)
    ensures var r := Add(LoadComplete(l), child, x, y);
      r.positioned && r.parentUpdated && r.layout.loaded
  {
  }

  /** The outcome of Add, Move or Remove: the new layout, whether the
      child's frame was recomputed, and whether the parent layout was asked
      to update. Both happen only once the layout has loaded. */
  datatype Change = Change(layout: Layout, positioned: bool, parentUpdated: bool)

  /** `Add`: records (x, y) for the child, overwriting any earlier location. */
  function Add(l: Layout, child: ControlId, x: int, y: int): (r: Change)
    ensures child in r.layout.points && r.layout.points[child] == Point(x, y)
    ensures r.layout.points.Keys == l.points.Keys + {child}
    ensures forall c :: c in l.points && c != child ==> r.layout.points[c] == l.points[c]
    ensures r.layout.loaded == l.loaded
    ensures r.positioned == l.loaded && r.parentUpdated == l.loaded
  {
    Change(l.(points := l.points[child := Point(x, y)]), l.loaded, l.loaded)
  }

  /** `Move`: reading the old location fails for an untracked child; moving
      to the current location changes nothing. */
  function Move(l: Layout, child: ControlId, x: int, y: int): (r: Result<Change>)
    ensures r.Throws? <==> child !in l.points
    ensures r.Throws? ==> r.error == KeyNotFound
    ensures r.Ok? && l.points[child] == Point(x, y) ==> r.value == Change(l, false, false)
    ensures r.Ok? && l.points[child] != Point(x, y) ==>
      r.value == Change(l.(points := l.points[child := Point(x, y)]), l.loaded, l.loaded)
  {
    if child !in l.points then Throws(KeyNotFound)
    else if l.points[child] != Point(x, y) then
      Ok(Change(l.(points := l.points[child := Point(x, y)]), l.loaded, l.loaded))
    else
      Ok(Change(l, false, false))
  }

  /** `Remove`: deletes the child's entry (if any) and leaves every other
      entry as it was. */
  function Remove(l: Layout, child: ControlId): (r: Change)
    ensures child !in r.layout.points
    ensures r.layout.points.Keys == l.points.Keys - {child}
    ensures forall c :: c in r.layout.points ==> r.layout.points[c] == l.points[c]
    ensures r.layout.loaded == l.loaded
    ensures !r.positioned && r.parentUpdated == l.loaded
  {
    Change(l.(points := l.points - {child}), false, l.loaded)
  }

  /** Adding an untracked child and removing it again restores the map. */
  lemma AddThenRemove(l: Layout, child: ControlId, x: int, y: int)
    requires child !in l.points
    ensures Remove(Add(l, child, x, y).layout, child).layout == l
  {
    assert l.points[child := Point(x, y)] - {child} == l.points;
  }

  /** Moving a tracked child has the same effect on the map as adding it
      again at the new location. */
  lemma MoveIsReAdd(l: Layout, child: ControlId, x: int, y: int)
    requires child in l.points
    ensures Move(l, child, x, y).Ok?
    ensures Move(l, child, x, y).value.layout == Add(l, child, x, y).layout
  {
    if l.points[child] == Point(x, y) {
      assert l.points[child := Point(x, y)] == l.points;
    }
  }

  /** The area a child covers measured from the layout's origin: its
      preferred size plus its location (32-bit arithmetic). */
  function Extent(l: Layout, pref: ControlId -> Size, c: ControlId): Size
    requires c in l.points
  {
    Plus(pref(c), l.points[c])
  }

  /** The order in which the dictionary enumerates the children: every
      element is tracked and every tracked child appears. */
  predicate IsEnumeration(l: Layout, order: seq<ControlId>) {
    && (forall i :: 0 <= i < |order| ==> order[i] in l.points)
    && (forall c :: c in l.points ==> c in order)
  }

  /** The component-wise maximum of the extents of the children in `order`,
      folded from `Empty` in that order. */
  function MaxExtent(l: Layout, pref: ControlId -> Size, order: seq<ControlId>): (r: Size)
    requires forall i :: 0 <= i < |order| ==> order[i] in l.points
    ensures r.width >= 0 && r.height >= 0
    ensures forall i :: 0 <= i < |order| ==> FitsIn(Extent(l, pref, order[i]), r)
    ensures r.width == 0 || exists i :: 0 <= i < |order| && Extent(l, pref, order[i]).width == r.width
    ensures r.height == 0 || exists i :: 0 <= i < |order| && Extent(l, pref, order[i]).height == r.height
    decreases |order|
  {
    if |order| == 0 then Empty
    else
      var prefix := order[..|order| - 1];
      var acc := MaxExtent(l, pref, prefix);
      assert forall i :: 0 <= i < |prefix| ==> prefix[i] == order[i];
      Max(acc, Extent(l, pref, order[|order| - 1]))
  }

  /** `GetPreferredSize`: the smallest size, starting from Empty, that holds
      every child's extent. An empty layout prefers Empty. */
  function GetPreferredSize(l: Layout, pref: ControlId -> Size, order: seq<ControlId>): (r: Size)
    requires IsEnumeration(l, order)
    ensures l.points == map[] ==> r == Empty
    ensures forall c :: c in l.points ==> FitsIn(Extent(l, pref, c), r)
    ensures IsLeastBound(l, pref, r)
  {
    var r := MaxExtent(l, pref, order);
    assert forall c :: c in l.points ==> FitsIn(Extent(l, pref, c), r) by {
      forall c | c in l.points
        ensures FitsIn(Extent(l, pref, c), r)
      {
        var i :| 0 <= i < |order| && order[i] == c;
      }
    }
    assert l.points == map[] ==> |order| == 0 by {
      if |order| > 0 {
        assert order[0] in l.points;
      }
    }
    r
  }

  /** `s` is at least Empty, holds every child's extent, and each component
      is either zero or reached by some child. */
  ghost predicate IsLeastBound(l: Layout, pref: ControlId -> Size, s: Size) {
    && s.width >= 0 && s.height >= 0
    && (forall c :: c in l.points ==> FitsIn(Extent(l, pref, c), s))
    && (s.width == 0 || exists c :: c in l.points && Extent(l, pref, c).width == s.width)
    && (s.height == 0 || exists c :: c in l.points && Extent(l, pref, c).height == s.height)
  }

  /** There is only one least bound. */
  lemma LeastBoundUnique(l: Layout, pref: ControlId -> Size, s: Size, t: Size)
    requires IsLeastBound(l, pref, s) && IsLeastBound(l, pref, t)
    ensures s == t
  {
    if s.width != 0 { var c :| c in l.points && Extent(l, pref, c).width == s.width; }
    if t.width != 0 { var c :| c in l.points && Extent(l, pref, c).width == t.width; }
    if s.height != 0 { var c :| c in l.points && Extent(l, pref, c).height == s.height; }
    if t.height != 0 { var c :| c in l.points && Extent(l, pref, c).height == t.height; }
  }

  /** The preferred size does not depend on the dictionary's enumeration
      order. */
  lemma PreferredSizeOrderIndependent(l: Layout, pref: ControlId -> Size, o1: seq<ControlId>, o2: seq<ControlId>)
    requires IsEnumeration(l, o1) && IsEnumeration(l, o2)
    ensures GetPreferredSize(l, pref, o1) == GetPreferredSize(l, pref, o2)
  {
    LeastBoundUnique(l, pref, GetPreferredSize(l, pref, o1), GetPreferredSize(l, pref, o2));
  }

  /** What `SetPosition` needs to know about a child: its position offset,
      its preferred size for the container's frame, and its current frame. */
  datatype Child = Child(offset: Size, preferred: Size, frame: Rect)

  /** The frame origin for a location: shifted by the offset, and in an
      unflipped view measured from the bottom of a container of the given
      height. */
  function Origin(point: Point, offset: Size, preferredHeight: int, frameHeight: int, flipped: bool): (r: Point)
    ensures r.x == Wrap32(point.x + offset.width)
    ensures flipped ==> r.y == Wrap32(point.y + offset.height)
    ensures !flipped ==> r.y == frameHeight - Wrap32(preferredHeight + point.y + offset.height)
  {
    var x := Wrap32(point.x + offset.width);
    if flipped then
      Point(x, Wrap32(point.y + offset.height))
    else
      WrapOfWrappedSum(preferredHeight, point.y, offset.height);
      Point(x, frameHeight - Wrap32(Wrap32(preferredHeight + point.y) + offset.height))
  }

  /** Without overflow the unflipped origin puts the child's top edge
      exactly `point.y + offset.height` below the top of the container, as
      the flipped origin does from the top. */
  lemma UnflippedTopEdge(point: Point, offset: Size, preferredHeight: int, frameHeight: int)
    requires InInt32(preferredHeight + point.y + offset.height)
    requires InInt32(point.y + offset.height)
    ensures frameHeight - (Origin(point, offset, preferredHeight, frameHeight, false).y + preferredHeight)
         == Origin(point, offset, preferredHeight, frameHeight, true).y
  {
  }

  datatype Placement = Placement(frame: Rect, reassigned: bool)

  /** `SetPosition`: the child's frame becomes the computed one, and the
      native frame is reassigned only when it differs from the current one. */
  function SetPosition(child: Child, point: Point, frameHeight: int, flipped: bool): (r: Placement)
    ensures r.frame.size == child.preferred
    ensures r.frame.origin == Origin(point, child.offset, child.preferred.height, frameHeight, flipped)
    ensures r.reassigned <==> r.frame != child.frame
  {
    var frame := Rect(Origin(point, child.offset, child.preferred.height, frameHeight, flipped), child.preferred);
    Placement(frame, frame != child.frame)
  }

  /** Placing a child a second time, once its frame is in place, assigns
      nothing. */
  lemma SetPositionSettles(child: Child, point: Point, frameHeight: int, flipped: bool)
    ensures !SetPosition(child.(frame := SetPosition(child, point, frameHeight, flipped).frame), point, frameHeight, flipped).reassigned
  {
  }

  /** `LayoutChildren`: every tracked child is placed at its location. */
  function LayoutChildren(l: Layout, children: ControlId -> Child, frameHeight: int, flipped: bool): (r: map<ControlId, Placement>)
    ensures r.Keys == l.points.Keys
    ensures forall c :: c in r ==> r[c] == SetPosition(children(c), l.points[c], frameHeight, flipped)
  {
    map c | c in l.points :: SetPosition(children(c), l.points[c], frameHeight, flipped)
  }

  /** `GetPosition`: a tracked child's rectangle has its stored location as
      origin and its current frame size; any other child's rectangle comes
      from the base layout. */
  function GetPosition(l: Layout, c: ControlId, frameSize: Size, base: Rect): (r: Rect)
    ensures c in l.points ==> r.origin == l.points[c] && r.size == frameSize
    ensures c !in l.points ==> r == base
  {
    if c in l.points then Rect(l.points[c], frameSize) else base
  }

  /** In a flipped container, a child with no position offset is placed
      with the origin `GetPosition` reports for it. */
  lemma FlippedLayoutMatchesGetPosition(l: Layout, children: ControlId -> Child, frameHeight: int, c: ControlId, base: Rect)
    requires c in l.points
    requires children(c).offset == Empty
    requires InInt32(l.points[c].x) && InInt32(l.points[c].y)
    ensures LayoutChildren(l, children, frameHeight, true)[c].frame.origin
         == GetPosition(l, c, children(c).preferred, base).origin
  {
  }
}

=== FILE: results.dfy ===
/** The exceptions the modelled code can raise, and a result type that
    carries either a value or one of them. */
module Results {

  /** A nullable value: `None` stands for C#'s null. */
  datatype Option<+T> = None | Some(value: T) {
    function GetOr(default: T): T {
      match this
      case Some(v) => v
      case None => default
    }
  }

  datatype Exception =
    | NullReference          // a member access on null
    | KeyNotFound            // a dictionary indexer read of a missing key
    | ArgumentOutOfRange     // thrown explicitly by the binding extensions
    | InvalidCast            // a failed explicit cast
    | NotSupported           // thrown explicitly by the environment handler

  datatype Result<+T> = Ok(value: T) | Throws(error: Exception) {
    predicate IsFailure() {
      Throws?
    }

    function PropagateFailure<U>(): Result<U>
      requires Throws?
    {
      Throws(error)
    }

    function Extract(): T
      requires Ok?
    {
      value
    }
  }
}

=== FILE: system_actions.dfy ===
/** The macOS view handler's system actions: a fixed table of twelve
    action names, each with an Objective-C selector, and a per-view map
    from selector name to the toolkit action that handles it. */
module SystemActions {
  import opened Results

  /** The names `MapPlatformAction` accepts, in table order. */
  const SystemActionNames: seq<string> := [
    "cut", "copy", "paste", "selectAll", "delete", "undo", "redo",
    "pasteAsPlainText", "performClose", "performZoom", "arrangeInFront",
    "performMiniaturize"
  ]

  /** Selectors the view overrides once any system action is mapped. */
  const ValidateMenuItem: string := "validateMenuItem:"
  const ValidateToolbarItem: string := "validateToolbarItem:"

  /** The selector registered for a table name: the name followed by a colon. */
  function SelectorFor(name: string): (r: Option<string>)
    ensures r.Some? <==> name in SystemActionNames
    ensures r.Some? ==> r.value == name + ":" && |r.value| == |name| + 1 && r.value[|name|] == ':'
  {
    if name in SystemActionNames then Some(name + ":") else None
  }

  /** Different table names never share a selector. */
  lemma SelectorsDistinct(a: string, b: string)
    requires a in SystemActionNames && b in SystemActionNames && a != b
    ensures SelectorFor(a) != SelectorFor(b)
  {
    var sa, sb := a + ":", b + ":";
    assert sa[..|a|] == a;
    assert sb[..|b|] == b;
    assert |sa| == |sb| ==> |a| == |b|;
  }

  /** The table has twelve distinct names. */
  lemma TableHasTwelveNames()
    ensures |SystemActionNames| == 12
    ensures forall i, j :: 0 <= i < j < |SystemActionNames| ==> SystemActionNames[i] != SystemActionNames[j]
  {
  }

  /** A toolkit action; it may be null when mapped. */
  datatype Action = Action(id: nat, enabled: bool)

  /** `actions` is null until the first mapping; `overridden` is the set of
      selectors the view has installed native methods for. */
  datatype Handler = Handler(actions: Option<map<string, Option<Action>>>, overridden: set<string>)

  function New(): (h: Handler)
    ensures Valid(h)
    ensures h.actions.None? && h.overridden == {}
  {
    Handler(None, {})
  }

  /** The map holds only table selectors, and the installed native methods
      are exactly the two validators plus one trigger per mapped selector. */
  ghost predicate Valid(h: Handler) {
    match h.actions
    case None => h.overridden == {}
    case Some(m) =>
      && (forall s :: s in m ==> exists n :: n in SystemActionNames && SelectorFor(n) == Some(s))
      && h.overridden == m.Keys + {ValidateMenuItem, ValidateToolbarItem}
  }

  /** `MapPlatformAction`: names outside the table are ignored; a table name
      stores the action under its selector, replacing any earlier one. */
  function MapPlatformAction(h: Handler, name: string, action: Option<Action>): (r: Handler)
    ensures name !in SystemActionNames ==> r == h
    ensures name in SystemActionNames ==>
      && r.actions.Some?
      && (name + ":") in r.actions.value && r.actions.value[name + ":"] == action
      && (name + ":") in r.overridden
    ensures name in SystemActionNames && h.actions.None? ==>
      ValidateMenuItem in r.overridden && ValidateToolbarItem in r.overridden
    ensures h.actions.Some? ==>
      && r.actions.Some?
      && forall s :: s in h.actions.value && s != name + ":" ==> s in r.actions.value && r.actions.value[s] == h.actions.value[s]
    ensures r.actions.Some? ==> forall s :: s in r.actions.value && s != name + ":" ==> h.actions.Some? && s in h.actions.value
    ensures h.overridden <= r.overridden
    ensures Valid(h) ==> Valid(r)
  {
    match SelectorFor(name)
    case None => h
    case Some(sel) =>
      var m := h.actions.GetOr(map[]);
      var installed := if h.actions.None? then h.overridden + {ValidateMenuItem, ValidateToolbarItem} else h.overridden;
      Handler(Some(m[sel := action]), installed + {sel})
  }

  /** `ValidateSystemMenuAction` and `ValidateSystemToolbarAction`: the
      item's selector names a mapped, non-null action, and that action is
      enabled. Items without a selector, unmapped selectors and null
      actions all validate as false. */
  function Validate(h: Handler, itemAction: Option<string>): (r: bool)
    ensures r ==> h.actions.Some? && itemAction.Some? && itemAction.value in h.actions.value
    ensures r <==> Lookup(h, itemAction).Some? && Lookup(h, itemAction).value.enabled
  {
    match Lookup(h, itemAction)
    case Some(a) => a.enabled
    case None => false
  }

  /** The non-null action mapped for a selector, if any. */
  function Lookup(h: Handler, selector: Option<string>): Option<Action> {
    if h.actions.Some? && selector.Some? && selector.value in h.actions.value
    then h.actions.value[selector.value]
    else None
  }

  /** `TriggerSystemAction`: activates the action mapped for the selector
      (`Ok(Some(a))`), does nothing for an unmapped selector (`Ok(None)`),
      and fails on a null action, which it dereferences. */
  function TriggerSystemAction(h: Handler, selector: string): (r: Result<Option<Action>>)
    ensures r == Ok(None) <==> h.actions.None? || selector !in h.actions.value
    ensures r.Ok? && r.value.Some? ==> Lookup(h, Some(selector)) == r.value
    ensures r.Throws? ==> r.error == NullReference && Lookup(h, Some(selector)).None?
  {
    if h.actions.Some? && selector in h.actions.value then
      match h.actions.value[selector]
      case Some(a) => Ok(Some(a))
      case None => Throws(NullReference)
    else
      Ok(None)
  }

  /** After mapping a table name to an action, the validators report that
      action's enabled state and triggering the selector activates it; a
      null action validates as false and fails when triggered. */
  lemma MapThenUse(h: Handler, name: string, action: Option<Action>)
    requires name in SystemActionNames
    ensures var r := MapPlatformAction(h, name, action);
      && Validate(r, Some(name + ":")) == (action.Some? && action.value.enabled)
      && (action.Some? ==> TriggerSystemAction(r, name + ":") == Ok(action))
      && (action.None? ==> TriggerSystemAction(r, name + ":") == Throws(NullReference))
  {
  }

  /** Mapping the same name twice keeps only the later action. */
  lemma MapTwiceOverwrites(h: Handler, name: string, first: Option<Action>, second: Option<Action>)
    ensures MapPlatformAction(MapPlatformAction(h, name, first), name, second).actions
         == MapPlatformAction(h, name, second).actions
  {
    if name in SystemActionNames {
      var m := h.actions.GetOr(map[]);
      assert m[name + ":" := first][name + ":" := second] == m[name + ":" := second];
    }
  }

  /** Mapping a name leaves every other selector's validation and trigger
      outcome as it was. */
  lemma MapLeavesOthers(h: Handler, name: string, action: Option<Action>, other: string)
    requires other != name + ":"
    ensures Validate(MapPlatformAction(h, name, action), Some(other)) == Validate(h, Some(other))
    ensures TriggerSystemAction(MapPlatformAction(h, name, action), other) == TriggerSystemAction(h, other)
  {
  }
}

=== FILE: tree_view.dfy ===
/** The Windows tree view handler's lazy population: how an item tree from
    the data store becomes a tree of native nodes, with a placeholder child
    standing in for the children of collapsed expandable items until the
    node is about to expand. */
module TreeView {
  import opened Results

  type ImageId = nat

  /** A tree item as the data store reports it. */
  datatype Item = Item(key: string, text: string, image: Option<ImageId>,
                       expandable: bool, expanded: bool, children: seq<Item>)

  /** A native tree node: name, text, image key, tag, expanded state and
      child nodes. */
  datatype Node = Node(name: string, text: string, imageKey: Option<string>,
                       tag: Option<Item>, isExpanded: bool, nodes: seq<Node>)

  /** The placeholder's name. At run time it is a GUID drawn once per
      process; any fixed string stands for it here. */
  const EmptyName: string := "placeholder-3f2504e0-4f89-11d3-9a0c-0305e82c3301"

  /** The placeholder child: named `EmptyName`, empty text, no image, no tag. */
  const Placeholder: Node := Node(EmptyName, "", None, None, false, [])

  /** `GetImageKey`: null for no image; otherwise the key `keyFor` gives
      the image, one key per image. The handler itself draws a fresh GUID on
      every call (`ImageKeyAsWritten`); this is the corrected behaviour that
      `ImageKeyCached` proves, and population uses it. */
  function ImageKey(image: Option<ImageId>, keyFor: ImageId -> string): (r: Option<string>)
    ensures r.None? <==> image.None?
  {
    match image
    case None => None
    case Some(i) => Some(keyFor(i))
  }

  /** The handler's image list and its image-to-key cache. */
  datatype ImageStore = ImageStore(entries: seq<(ImageId, string)>, cache: map<ImageId, string>)

  datatype Keyed = Keyed(key: Option<string>, store: ImageStore)

  /** `GetImageKey` as written: the cache is consulted but never filled,
      so every call for an image adds it to the image list again under the
      fresh key. */
  function ImageKeyAsWritten(s: ImageStore, image: Option<ImageId>, freshKey: string): (r: Keyed)
    ensures image.None? ==> r == Keyed(None, s)
    ensures r.store.cache == s.cache
    ensures image.Some? && image.value !in s.cache ==>
      r.key == Some(freshKey) && r.store.entries == s.entries + [(image.value, freshKey)]
  {
    match image
    case None => Keyed(None, s)
    case Some(i) =>
      if i in s.cache then Keyed(Some(s.cache[i]), s)
      else Keyed(Some(freshKey), s.(entries := s.entries + [(i, freshKey)]))
  }

  /** As written, asking twice for the key of the same image adds two list
      entries with two different keys. */
  lemma ImageKeyAsWrittenDuplicates(i: ImageId, k1: string, k2: string)
    requires k1 != k2
    ensures var s0 := ImageStore([], map[]);
      var first := ImageKeyAsWritten(s0, Some(i), k1);
      var second := ImageKeyAsWritten(first.store, Some(i), k2);
      && first.key != second.key
      && |second.store.entries| == 2
  {
  }

  /** `GetImageKey` as evidently intended: a new key is remembered for the
      image, so later calls reuse it. */
  function ImageKeyCached(s: ImageStore, image: Option<ImageId>, freshKey: string): (r: Keyed)
    ensures image.None? ==> r == Keyed(None, s)
    ensures image.Some? ==> image.value in r.store.cache && r.key == Some(r.store.cache[image.value])
    ensures image.Some? && image.value in s.cache ==> r == Keyed(Some(s.cache[image.value]), s)
    ensures image.Some? && image.value !in s.cache ==>
      r.key == Some(freshKey) && r.store.entries == s.entries + [(image.value, freshKey)]
    ensures forall j :: j in s.cache ==> j in r.store.cache && r.store.cache[j] == s.cache[j]
  {
    match image
    case None => Keyed(None, s)
    case Some(i) =>
      if i in s.cache then Keyed(Some(s.cache[i]), s)
      else Keyed(Some(freshKey), ImageStore(s.entries + [(i, freshKey)], s.cache[i := freshKey]))
  }

  /** With the cache filled, the second request for an image returns the
      first key and leaves the image list as it was. */
  lemma ImageKeyCachedReuses(s: ImageStore, i: ImageId, k1: string, k2: string)
    ensures var first := ImageKeyCached(s, Some(i), k1);
      ImageKeyCached(first.store, Some(i), k2) == Keyed(first.key, first.store)
  {
  }

  /** The key function the population uses is the corrected cache seen
      from outside: while the cache agrees with `keyFor`, and a missing
      image receives `keyFor`'s key, every request answers `keyFor`'s key
      and the cache keeps agreeing. */
  lemma CachedKeysAreKeyFor(s: ImageStore, image: Option<ImageId>, keyFor: ImageId -> string)
    requires forall j :: j in s.cache ==> s.cache[j] == keyFor(j)
    ensures var r := ImageKeyCached(s, image, if image.Some? then keyFor(image.value) else "");
      && r.key == ImageKey(image, keyFor)
      && forall j :: j in r.store.cache ==> r.store.cache[j] == keyFor(j)
  {
  }

  /** The node for one item: an expanded expandable item has its children
      populated and is expanded; a collapsed expandable item gets the
      placeholder; any other item gets no children. */
  function PopulateNode(item: Item, keyFor: ImageId -> string): (r: Node)
    ensures r.name == item.key && r.text == item.text && r.tag == Some(item)
    ensures r.imageKey == ImageKey(item.image, keyFor)
    ensures !item.expandable ==> r.nodes == [] && !r.isExpanded
    ensures item.expandable && !item.expanded ==> r.nodes == [Placeholder] && !r.isExpanded
    ensures item.expandable && item.expanded ==> r.isExpanded && r.nodes == PopulateNodes(item.children, keyFor)
    decreases item, 1
  {
    var node := Node(item.key, item.text, ImageKey(item.image, keyFor), Some(item), false, []);
    if !item.expandable then node
    else if item.expanded then node.(nodes := PopulateNodes(item.children, keyFor), isExpanded := true)
    else node.(nodes := [Placeholder])
  }

  /** `PopulateNodes`: the target collection is cleared and refilled with
      one node per item, in store order. */
  function PopulateNodes(store: seq<Item>, keyFor: ImageId -> string): (r: seq<Node>)
    ensures |r| == |store|
    ensures forall i :: 0 <= i < |store| ==> r[i] == PopulateNode(store[i], keyFor)
    decreases store, 0
  {
    if |store| == 0 then []
    else [PopulateNode(store[0], keyFor)] + PopulateNodes(store[1..], keyFor)
  }

  /** Every node the population produces carries its item's key, text and
      tag at the same index, and only collapsed expandable items carry a
      placeholder. */
  lemma PopulatedShape(store: seq<Item>, keyFor: ImageId -> string, i: nat)
    requires i < |store|
    ensures PopulateNodes(store, keyFor)[i].name == store[i].key
    ensures PopulateNodes(store, keyFor)[i].text == store[i].text
    ensures PopulateNodes(store, keyFor)[i].tag == Some(store[i])
    ensures HasPlaceholder(PopulateNodes(store, keyFor)[i]) <==>
      store[i].expandable && (!store[i].expanded || (|store[i].children| == 1 && store[i].children[0].key == EmptyName))
  {
    var item := store[i];
    var n := PopulateNodes(store, keyFor)[i];
    assert n == PopulateNode(item, keyFor);
    if item.expandable && item.expanded {
      var kids := PopulateNodes(item.children, keyFor);
      assert n.nodes == kids;
      if |kids| == 1 {
        assert kids[0] == PopulateNode(item.children[0], keyFor);
      }
    }
  }

  /** A node whose only child is named like the placeholder. */
  predicate HasPlaceholder(n: Node) {
    |n.nodes| == 1 && n.nodes[0].name == EmptyName
  }

  /** The BeforeExpand handler installed by the constructor: a node whose
      only child is the placeholder gets its item's real children; any
      other node is left as it is. A node without a tag fails. */
  function BeforeExpand(n: Node, keyFor: ImageId -> string): (r: Result<Node>)
    ensures !HasPlaceholder(n) ==> r == Ok(n)
    ensures HasPlaceholder(n) && n.tag.None? ==> r == Throws(NullReference)
    ensures HasPlaceholder(n) && n.tag.Some? ==>
      r.Ok? && r.value == n.(nodes := PopulateNodes(n.tag.value.children, keyFor))
  {
    if HasPlaceholder(n) then
      match n.tag
      case None => Throws(NullReference)
      case Some(item) => Ok(n.(nodes := PopulateNodes(item.children, keyFor)))
    else Ok(n)
  }

  /** Expanding a collapsed node lazily yields the same children as
      populating the item expanded in the first place. */
  lemma LazyMatchesEager(item: Item, keyFor: ImageId -> string)
    requires item.expandable && !item.expanded
    ensures BeforeExpand(PopulateNode(item, keyFor), keyFor).Ok?
    ensures BeforeExpand(PopulateNode(item, keyFor), keyFor).value.nodes
         == PopulateNode(item.(expanded := true), keyFor).nodes
  {
  }

  /** Running the lazy load twice gives what running it once gives. */
  lemma BeforeExpandIdempotent(n: Node, keyFor: ImageId -> string)
    requires BeforeExpand(n, keyFor).Ok?
    ensures BeforeExpand(BeforeExpand(n, keyFor).value, keyFor) == BeforeExpand(n, keyFor)
  {
  }

  datatype Expansion = Expansion(node: Node, cancel: bool)

  /** A native BeforeExpand event with the Expanding handler attached
      (`handlerAttached`): the lazy load runs first, since its handler was
      attached first, and then the widget's Cancel is copied to the native
      event. */
  function Expanding(n: Node, keyFor: ImageId -> string, handlerAttached: bool, widgetCancels: bool): (r: Result<Expansion>)
    ensures r.Ok? <==> BeforeExpand(n, keyFor).Ok?
    ensures r.Ok? ==> r.value.node == BeforeExpand(n, keyFor).value
    ensures r.Ok? ==> (r.value.cancel <==> handlerAttached && widgetCancels)
  {
    var loaded :- BeforeExpand(n, keyFor);
    Ok(Expansion(loaded, handlerAttached && widgetCancels))
  }

  /** A native BeforeCollapse event: the widget's Cancel is copied to the
      native event when the Collapsing handler is attached. */
  function Collapsing(handlerAttached: bool, widgetCancels: bool): (cancel: bool)
    ensures cancel ==> handlerAttached
    ensures handlerAttached ==> cancel == widgetCancels
  {
    handlerAttached && widgetCancels
  }

  /** A cancelled expansion still loads the children. */
  lemma CancelledExpansionStillLoads(n: Node, keyFor: ImageId -> string)
    requires HasPlaceholder(n) && n.tag.Some?
    ensures Expanding(n, keyFor, true, true).Ok?
    ensures Expanding(n, keyFor, true, true).value.cancel
    ensures Expanding(n, keyFor, true, true).value.node.nodes == PopulateNodes(n.tag.value.children, keyFor)
  {
  }

  /** The `SelectedItem` getter: null when nothing is selected, otherwise
      the selected node's tag (null for a placeholder). */
  function SelectedItem(selected: Option<Node>): (r: Option<Item>)
    ensures selected.None? ==> r.None?
    ensures selected.Some? ==> r == selected.value.tag
  {
    match selected
    case None => None
    case Some(n) => n.tag
  }

  /** The `DataStore` setter and `RefreshData`: the top-level nodes are
      repopulated from the store; a null store fails after the clear. */
  function SetDataStore(store: Option<seq<Item>>, keyFor: ImageId -> string): (r: Result<seq<Node>>)
    ensures r.Throws? <==> store.None?
    ensures r.Ok? ==>
      && |r.value| == |store.value|
      && forall i :: 0 <= i < |store.value| ==> r.value[i].tag == Some(store.value[i])
  {
    match store
    case None => Throws(NullReference)
    case Some(items) => Ok(PopulateNodes(items, keyFor))
  }

  /** A selected node from a freshly populated store reports its item. */
  lemma SelectingPopulatedNode(store: seq<Item>, keyFor: ImageId -> string, i: nat)
    requires i < |store|
    ensures SelectedItem(Some(SetDataStore(Some(store), keyFor).value[i])) == Some(store[i])
  {
  }

  datatype Activation = Activation(activated: Option<Item>, handled: bool)

  /** The Activated event: Return on a selection, or a double click on a
      selection, activates the selected item; Return marks the key handled. */
  function ActivateOnKey(selected: Option<Node>, isReturn: bool): (r: Activation)
    ensures r.activated.Some? <==> isReturn && SelectedItem(selected).Some?
    ensures r.activated.Some? ==> r.activated == SelectedItem(selected)
    ensures r.handled <==> r.activated.Some?
  {
    var item := SelectedItem(selected);
    if isReturn && item.Some? then Activation(item, true) else Activation(None, false)
  }

  function ActivateOnDoubleClick(selected: Option<Node>): (r: Option<Item>)
    ensures r.Some? <==> SelectedItem(selected).Some?
    ensures r == ActivateOnKey(selected, true).activated
  {
    SelectedItem(selected)
  }
}
